=== FILE: README.md ===
# d3-voronoi-map fitting controller, in Dafny

This project models the fitting controller of d3-voronoi-map (`src/d3-voronoi-map.js`).
The controller computes a Voronoi map: each data item gets a cell of a clipping polygon,
and the cell's area is meant to be proportional to the item's weight. The controller does this in four steps:

1. Each item's weight is floored at `minWeightRatio` times the largest weight.
2. Each item becomes a *treemap point* (a site). A site has a targeted area proportional to its floored weight,
   a seed position inside the clip, and a starting power-weight of `totalArea / (2n)`.
3. The run repeats *adapt* until the total area error falls below `convergenceRatio * totalArea`,
   or until `maxIterationCount` iterations have run. One adapt:
   - moves every site toward its cell's centroid;
   - corrects overweighted pairs;
   - rebuilds the weighted Voronoi diagram;
   - scales every power-weight by the clamped ratio of targeted to current area, floored at `epsilon = 1`;
   - corrects overweighted pairs again;
   - rebuilds the diagram again.
4. The run returns the polygons, the iteration count and the final error relative to the total area.

The modules follow the source's structure:

- `Sites`: points, sites, sums, and the `Option`/`Result` types.
- `GeometryOracle`: the weighted Voronoi construction and the polygon primitives. They are a
  parameter of the model, a record of functions. It is constrained only by what the controller relies
  on: at most one cell per site, each tagged with its site, each of positive area.
- `Overweight`: the two overweight-correction heuristics and their restart scan.
- `Adaptation`: `adaptPlacements`, `adaptWeights`, `computeAreaError` and `adapt`.
- `Initialization`: `initialize` and `createTreemapPoints`.
- `Controller`: the options with their accessors, the iteration loop, and `_voronoiMap(data)`.

The source's mutable treemap points become immutable `Site` values. Each heuristic becomes
a pure function from sites to sites. The in-place loops become recursive functions.

JavaScript numbers become `real`, so arithmetic is exact. Where the source would produce `NaN` or an infinity,
the model either has a precondition or returns `None`; each such case is listed below.

Two things can crash or hang the source. The model turns both into errors of a run:

- A diagram with fewer cells than sites gives `DegenerateDiagram`. In the source, the next
  `polygons[i].site` access fails.
- A correction that has not settled after `fuel` repairs gives `CorrectionDiverges`. In the source,
  the `do … while` loop has no bound.

The second case is real under both heuristics. The scan finds the first overweighted pair in site order, and
two sites at the same position always form one. So the trouble comes when those two coincident sites are the
first two sites of the scan. Under the default heuristic (variant 1), if the first two sites share a position
and differ in weight, they are never settled: each repair makes the lighter site the heavier one by
`epsilon`, and the scan finds the same pair again (`Overweight.CoincidentSitesNeverSettle`). Under variant 0,
if the first two sites share a position, the second weighs exactly `epsilon` and the first weighs less (and at
most 2), they are never settled: the repair writes back the same weight (`Overweight.StuckPairNeverSettles`).
Coincident sites further along the sequence may still settle, because an earlier repair can move the weights
first. Still, for two or more sites, no repair budget settles every input (`Overweight.UntroubledOnlyBelowTwo`). Sites far enough apart settle with one repair
(`Overweight.RaiseLightSettlesApartPair`, `Overweight.LowerHeavySettlesApartPair`).

## Model

| member | source | states |
|---|---|---|
| `Sites.SquaredDistance` | src/d3-voronoi-map.js:36-40 | the squared distance is non-negative and zero from a point to itself |
| `GeometryOracle.Diagram` | src/d3-voronoi-map.js:132-136 | a rebuilt diagram fails exactly when it has fewer cells than sites, and never with a construction that keeps every cell; otherwise every site has exactly one positive-area cell, and that cell belongs to the site it originates from; each cell is the construction's cell for those sites, in the construction's order |
| `GeometryOracle.TracksEveryItem` | src/d3-voronoi-map.js:311-348 | cells whose sites carry the item indexes without repetition give every item a cell |
| `GeometryOracle.CompleteOracleExists` | src/d3-voronoi-map.js:132-133 | a sound construction that keeps a cell for every site exists, so the success clauses below are not vacuous |
| `Overweight.SelectVariant` | src/d3-voronoi-map.js:292-303 | code 0 selects lowering the heavier weight, code 1 raising the lighter one, and any other code selects no handler (both directions) |
| `Overweight.SelectVariantRoundTrip` | src/d3-voronoi-map.js:293-299 | each heuristic is selected by its own code and by no other |
| `Overweight.Violates` | src/d3-voronoi-map.js:216-224 | a pair violates exactly when the squared distance is below the absolute weight gap |
| `Overweight.ViolatesIsWeightGap` | src/d3-voronoi-map.js:216-224 | the test "squared distance < heavier − lighter" is the symmetric test "squared distance < abs(weight gap)"; it does not depend on which site is met first, and a site never violates with itself |
| `Overweight.Heavier` | src/d3-voronoi-map.js:216-222 | the heavier of a pair is one of the two, the first one only when strictly heavier |
| `Overweight.Lighter` | src/d3-voronoi-map.js:254-260 | the lighter of a pair is one of the two, and of two distinct positions it is the one the heavier is not |
| `Overweight.NoViolationMembers` | src/d3-voronoi-map.js:212-224 | after a clean full scan, no two sites of the sequence violate, in either order |
| `Overweight.ScanRow` | src/d3-voronoi-map.js:214-233 | the inner loop stops at the first `j` whose pair violates, and no earlier `j` of the row does |
| `Overweight.ScanFrom` | src/d3-voronoi-map.js:212-236 | the nested loops find the first violating pair in scan order, or report that no pair from row `from` on violates |
| `Overweight.FirstViolation` | src/d3-voronoi-map.js:210-237 | a full scan finds nothing exactly when no pair violates; otherwise it finds the first violating pair in scan order |
| `Overweight.LowerHeavier` | src/d3-voronoi-map.js:223-229 | variant 0 changes only the heavier site's weight and sets it to at least epsilon; when the lighter weight is at least epsilon, the heavier weight drops and the pair no longer violates in that direction (the roles may swap, and the swapped pair may still violate) |
| `Overweight.RaiseLighter` | src/d3-voronoi-map.js:261-264 | variant 1 changes only the lighter site's weight; it raises it so that the pair no longer violates in that direction |
| `Overweight.Fix` | src/d3-voronoi-map.js:216-264 | one repair keeps positions, indexes and targets and keeps an epsilon floor; variant 1 never lowers a weight, and variant 0 never raises one on floored sites |
| `Overweight.Correct` | src/d3-voronoi-map.js:207-277 | a settled correction leaves no violating pair, moves no site, keeps the epsilon floor and moves weights only in the heuristic's direction; already settled sites are returned unchanged |
| `Overweight.CorrectIdempotent` | src/d3-voronoi-map.js:210-237 | correcting corrected sites changes nothing |
| `Overweight.CoincidentSitesNeverSettle` | src/d3-voronoi-map.js:248-272 | under variant 1, sites whose first two coincide with different weights never settle, whatever the repair budget: that pair is found and swapped again on every scan |
| `Overweight.StuckPairNeverSettles` | src/d3-voronoi-map.js:210-237 | under variant 0, sites whose first two coincide, the second at `epsilon` and the first below it and at most 2, never settle, whatever the repair budget: the repair writes back `max(0 + lighter / 2, epsilon) = epsilon` |
| `Overweight.RaiseLightSettlesApartPair` | src/d3-voronoi-map.js:248-272 | under variant 1, two sites at squared distance at least `epsilon / 2` settle with one repair, which raises the lighter weight to `heavier − sqrD + epsilon` |
| `Overweight.LowerHeavySettlesApartPair` | src/d3-voronoi-map.js:210-237 | under variant 0, two floored sites whose lighter weight is at most four times their squared distance settle with one repair, which sets the heavier weight to `max(sqrD + lighter / 2, epsilon)` |
| `Overweight.UntroubledOnlyBelowTwo` | src/d3-voronoi-map.js:210-272 | with fewer than two sites every budget settles every correction; with two or more sites no budget settles every correction, under either variant |
| `Adaptation.PlacementDamping` | src/d3-voronoi-map.js:151-155 | the damping factor lies in [0.5, 1] for a mitigation ratio in [0, 1], and is 1 without mitigation |
| `Adaptation.Toward` | src/d3-voronoi-map.js:161-170 | moving none of the way stays put, moving all of it lands on the centroid |
| `Adaptation.TowardDistances` | src/d3-voronoi-map.js:161-170 | moving a fraction `d` of the way toward the centroid covers `d²` of the squared distance and leaves `(1 − d)²` of it |
| `Adaptation.DampedStep` | src/d3-voronoi-map.js:161-170 | a damped move never overshoots the centroid and at least halves the distance to it |
| `Adaptation.PlaceSite` | src/d3-voronoi-map.js:157-172 | a placed site keeps its index, target and weight, moves no farther than the centroid, ends at least halfway there, and reaches it without mitigation |
| `Adaptation.AdaptPlacements` | src/d3-voronoi-map.js:149-176 | every site moves toward its own cell's centroid, at least halfway, and only positions change |
| `Adaptation.LowerRatioBound` | src/d3-voronoi-map.js:191 | the lowest admissible adapt ratio lies in [0.9, 1] for a mitigation ratio in [0, 1], and is 0.9 without mitigation |
| `Adaptation.UpperRatioBound` | src/d3-voronoi-map.js:192 | the highest admissible adapt ratio lies in [1, 1.1] for a mitigation ratio in [0, 1], is 1.1 without mitigation, and mirrors the lowest one around 1 |
| `Adaptation.ClampRatio` | src/d3-voronoi-map.js:191-192 | the adapt ratio is clamped into [lower, upper]: it is kept when inside, becomes the nearer bound when outside, and becomes the upper bound when the bounds cross |
| `Adaptation.AdaptedWeight` | src/d3-voronoi-map.js:195-196 | an adapted weight is the scaled weight or epsilon, whichever is larger |
| `Adaptation.ClampRatioBounds` | src/d3-voronoi-map.js:180-193 | with a mitigation ratio in [0, 1], the clamped ratio lies in [0.9, 1.1] and is on the same side of 1 as the area ratio |
| `Adaptation.QuotientAgainstOne` | src/d3-voronoi-map.js:188 | the area ratio `targetedArea / currentArea` is at least 1 for a cell smaller than its target, at most 1 for a larger one, and exactly 1 on target |
| `Adaptation.ScaledWeightBounds` | src/d3-voronoi-map.js:195-196 | scaling by a clamped ratio and flooring at epsilon changes a weight by at most 10% (the floor aside), in the direction of the ratio |
| `Adaptation.AdaptedWeightBounds` | src/d3-voronoi-map.js:186-196 | an adapted weight changes by at most 10% (the floor aside); a cell too small never loses weight, a cell too large never gains any above the floor, and a cell on target keeps its floored weight |
| `Adaptation.AdaptWeight` | src/d3-voronoi-map.js:185-200 | one site's adapted weight is at least epsilon, within 10% of the old weight, and moves toward the targeted area; nothing else changes |
| `Adaptation.AdaptWeights` | src/d3-voronoi-map.js:178-204 | every adapted weight is at least epsilon and within 10% of the cell's weight; positions, indexes and targets are kept |
| `Adaptation.AreaError` | src/d3-voronoi-map.js:279-290 | the total area error is never negative |
| `Adaptation.AreaErrorZeroIff` | src/d3-voronoi-map.js:279-290 | the error is zero exactly when every cell has its targeted area |
| `Adaptation.AreaErrorBoundsCells` | src/d3-voronoi-map.js:283-288 | the total error bounds every single cell's error |
| `Adaptation.CellsOfSettledSites` | src/d3-voronoi-map.js:138-140 | cells rebuilt from corrected, floored sites are settled |
| `Adaptation.Reposition` | src/d3-voronoi-map.js:130-136 | moving, correcting and rebuilding keeps one positive-area cell per item with its index and target; each new cell's site is the corrected moved site of its origin, at least halfway from that cell's old site to its centroid; it fails with `CorrectionDiverges` exactly when the correction of the moved sites does not settle, and otherwise with `DegenerateDiagram` exactly when their diagram is short of cells |
| `Adaptation.Reweigh` | src/d3-voronoi-map.js:138-144 | reweighing, correcting and rebuilding gives settled cells, one per item with its index and target; each new cell's site is the corrected reweighed site of its origin, at its origin's position; it fails with `CorrectionDiverges` exactly when the correction of the reweighed sites does not settle, and otherwise with `DegenerateDiagram` exactly when their diagram is short of cells |
| `Adaptation.Adapt` | src/d3-voronoi-map.js:127-147 | a successful adapt returns settled positive-area cells, and each item keeps exactly one of them with its targeted area; only positions and weights change, and every site lies at most half as far from its old cell's centroid as that cell's site; both phases ran, each site being the corrected reweighed site of a cell of the repositioned diagram; it fails only on a short diagram or an unsettled correction, and with a construction that keeps every cell only on a correction |
| `Adaptation.PlacementsCompose` | src/d3-voronoi-map.js:130-143 | a site that kept the index and position of a placed site, which covered half the way to its old cell's centroid, has covered that half too |
| `Adaptation.AdaptFailures` | src/d3-voronoi-map.js:130-143 | an adapt that fails with `CorrectionDiverges` had the correction of its moved sites, or of its reweighed sites, not settle; one that fails with `DegenerateDiagram` had the diagram of its corrected moved sites, or of its corrected reweighed sites, short of cells |
| `Adaptation.TracksThroughDiagram` | src/d3-voronoi-map.js:131-132 | sites that keep the indexes and targets of tracked cells, rebuilt into a diagram, give tracked cells again |
| `Adaptation.RebuiltKeepsIdentities` | src/d3-voronoi-map.js:130-140 | after a step that keeps indexes and targets, a correction and a rebuild, every cell carries an index and target an input cell had |
| `Initialization.MaxWeight` | src/d3-voronoi-map.js:306 | the reduced maximum is one of the weights and bounds all of them |
| `Initialization.MinAllowedWeight` | src/d3-voronoi-map.js:307 | the floor is non-negative for a non-negative largest weight and ratio, and never above the largest weight for a ratio up to 1 |
| `Initialization.ExtractWeights` | src/d3-voronoi-map.js:306-317 | each extracted weight is the data weight, raised to `maxWeight * minWeightRatio` when below it, and never below either |
| `Initialization.ExtractedNonNegative` | src/d3-voronoi-map.js:306-314 | with a non-negative largest weight and ratio, every extracted weight is non-negative |
| `Initialization.TotalWeightPositive` | src/d3-voronoi-map.js:311-327 | with a positive largest weight, the total extracted weight is positive, so targeted areas are defined |
| `Initialization.ZeroWeightIsFloored` | src/d3-voronoi-map.js:314 | with the default ratio, an item of weight 0 next to one of weight 100 is floored to 1 |
| `Initialization.DefaultWeight` | src/d3-voronoi-map.js:329-334 | the starting power-weights of the `n` sites add up to half the total area |
| `Initialization.TargetedArea` | src/d3-voronoi-map.js:348 | a targeted area times the total weight is the total area times the item's weight |
| `Initialization.ProportionalTargetsSum` | src/d3-voronoi-map.js:327-348 | targeted areas proportional to the weights add up to the total area |
| `Initialization.ProportionalTargetsOrder` | src/d3-voronoi-map.js:348 | targeted areas are ordered like the weights, and positive for positive weights when the area is positive |
| `Initialization.CreateTreemapPoints` | src/d3-voronoi-map.js:326-355 | one site per weight, with its index and seed, the same starting power-weight, and a targeted area proportional to its weight; the targets add up to the total area and are ordered like the weights |
| `Initialization.Initialize` | src/d3-voronoi-map.js:305-324 | the first diagram gives every item exactly one positive-area cell, at the item's seed, at the default power-weight and targeting the item's share of the area; it fails exactly when the diagram of the created sites is short of cells, and never with a construction that keeps every cell |
| `Initialization.FirstCellsTracked` | src/d3-voronoi-map.js:322-323 | the cells of the first diagram carry each item's index once, with the item's target |
| `Controller.Defaults` | src/d3-voronoi-map.js:9-31 | a fresh map converges at 1% of the area, stops after 50 iterations, floors weights at 1% of the largest, and uses the heuristic that raises lighter weights |
| `Controller.SetWeight` | src/d3-voronoi-map.js:81-86 | the weight setter is read back and changes no other option |
| `Controller.SetConvergenceRatio` | src/d3-voronoi-map.js:88-93 | the convergence-ratio setter is read back and changes no other option |
| `Controller.SetMaxIterationCount` | src/d3-voronoi-map.js:95-100 | the iteration-budget setter is read back and changes no other option |
| `Controller.SetMinWeightRatio` | src/d3-voronoi-map.js:102-107 | the weight-floor setter is read back and changes no other option |
| `Controller.SetTick` | src/d3-voronoi-map.js:109-114 | the tick setter is read back and changes no other option |
| `Controller.SetClip` | src/d3-voronoi-map.js:116-121 | the clip setter is read back and changes no other option |
| `Controller.AccessorsRoundTrip` | src/d3-voronoi-map.js:81-121 | setting an option to its current value changes nothing, and of two settings of one option the last one wins, for each of the six setters |
| `Controller.RawWeights` | src/d3-voronoi-map.js:306-314 | the data weights are read through the configured accessor, one per item, in order |
| `Controller.TotalArea` | src/d3-voronoi-map.js:53 | the area to share is the clip's area whatever its orientation, so never negative |
| `Controller.Threshold` | src/d3-voronoi-map.js:54 | the error threshold is non-negative for a non-negative ratio, and relative to a positive total area it is the convergence ratio |
| `Controller.ConvergedIffRatio` | src/d3-voronoi-map.js:54-69 | the loop's exit test holds exactly when the last error relative to the total area is below the convergence ratio |
| `Controller.StillAboveThreshold` | src/d3-voronoi-map.js:64-69 | recording a new error after an unconverged iteration keeps every earlier error at or above the threshold |
| `Controller.Step` | src/d3-voronoi-map.js:65-69 | one loop pass adapts the cells, keeps their count, settles them, and appends their area error to the history |
| `Controller.StepOutcome` | src/d3-voronoi-map.js:65 | a pass keeps each item's one cell and target; a pass that fails is the adapt of its cells failing with the same error |
| `Controller.Replay` | src/d3-voronoi-map.js:64-69 | `k` passes without the exit test record `k` more errors after the earlier ones and keep the cell count; only a replay of at least one pass can fail |
| `Controller.Iterate` | src/d3-voronoi-map.js:64-72 | a finished loop (`Controller.Finished`) extends the errors it was given, within the budget, keeps the cell count, and stops at the first iteration whose error is below the threshold or when the budget is spent; every earlier error was at or above the threshold, and the last recorded error is that of the returned settled cells |
| `Controller.IterateOutcome` | src/d3-voronoi-map.js:64-72 | every pass of the loop keeps each item's one cell and target; a loop that fails has a pass within the remaining budget that fails with the same error, replayed from where the loop was entered; with a construction that keeps every cell only a correction ends the loop early |
| `Controller.IterateStops` | src/d3-voronoi-map.js:64 | a loop entered converged, or with its budget spent, returns the cells and errors it was given |
| `Controller.IterateGoesOn` | src/d3-voronoi-map.js:64-69 | a finished loop entered neither converged nor out of budget makes a successful first pass that records exactly one more error, and the loop from there finishes with the same run |
| `Controller.ReplayFirstPass` | src/d3-voronoi-map.js:64-69 | a replay of `m + 1` passes is the first pass followed by a replay of `m` passes from its result |
| `Controller.ReplayCount` | src/d3-voronoi-map.js:64-69 | a replay that reaches a run made exactly as many passes as the run has errors beyond the starting ones |
| `Controller.ReplaysToEnd` | src/d3-voronoi-map.js:64-72 | a finished loop is reached by replaying some number of passes from where it was entered |
| `Controller.IterateReplays` | src/d3-voronoi-map.js:64-72 | a finished loop is exactly its passes replayed, one per error it recorded: no pass is skipped and no error is made up |
| `Controller.RatioBelowThreshold` | src/d3-voronoi-map.js:69-77 | the reported ratio is below the convergence ratio exactly when the error is below the threshold |
| `Controller.Report` | src/d3-voronoi-map.js:74-78 | the result's ratio is the last error over the total area (undefined for a zero area); a run that stopped early reports a ratio below the convergence ratio |
| `Controller.Iterations` | src/d3-voronoi-map.js:57-78 | a run with a budget of at least one iteration keeps each item's one cell and target, runs between one and the budget's iterations, and reports the final error over the total area; a run that finishes returns the cells of exactly `iterationCount` replayed passes from the first diagram; a run that fails has a pass within the budget, replayed from the first diagram, that fails with the same error |
| `Controller.Fit` | src/d3-voronoi-map.js:47-79 | one polygon per item, each item's exactly once with its targeted share of the area; at most `maxIterationCount` iterations (at least one when the budget allows), settled polygons after any iteration, a ratio that is the final error over the total area and below the convergence ratio whenever the run stopped early; failure when no heuristic is selected, and with a construction that keeps every cell only then or on a correction |
| `Controller.FromFirstDiagram` | src/d3-voronoi-map.js:56-78 | after the first diagram, a zero budget returns it unchanged with no iteration and no ratio; otherwise the run keeps each item's one cell and target, runs between one and the budget's iterations, settles its cells, and reports the final error over the total area, below the convergence ratio whenever it stopped early; it fails on an unknown heuristic code, and with a construction that keeps every cell only then or on a correction |
| `Controller.FitOutcome` | src/d3-voronoi-map.js:47-79 | a run that finishes with a zero budget returns the first diagram and reports no iteration; with a positive budget it reports at least one iteration and returns the cells of exactly `iterationCount` passes from the first diagram under the selected heuristic |
| `Controller.FitFailures` | src/d3-voronoi-map.js:47-79 | a run that fails had its first diagram short of cells, or no heuristic selected, or a pass within the budget, replayed from the first diagram, that fails with the same error |

## Left out

- Random seeding: the positions sampled inside the clip's bounding box (`extent`, `Math.random`) are given to the
  model as `seeds`. Like the sampling loop's exit test, the model requires each of them to pass the
  `polygonContains` test of the clip.
- The weighted Voronoi construction, `polygonArea`, `polygonCentroid` and `polygonContains` are parameters
  (`GeometryOracle.Geometry`). They are assumed to give positive-area cells, at most one per site. Those
  libraries are not part of this model.
- Flickering mitigation (`./flickering-mitigation`) is not part of this model. Its ratio is a parameter
  `flicker` of the run: a function of the total area and the errors measured so far, ranging over [0, 1].
- `tick` is stored and read back by its accessor, but the run does not call it: its return value is ignored by the source.
  `console.log` and `debugger` are not modelled.
- IEEE doubles are modelled as exact reals, so rounding is not modelled. A `convergenceRatio` that would be `NaN` or
  an infinity is `None`: when no iteration ran, and when the total area is zero.
- Controller.Fit: requires a non-zero total extracted weight when there is data. With a zero total the source
  computes `NaN` targeted areas, which the model does not represent.
- Controller.Fit: the iteration budget is a whole number. The source also accepts a fractional or infinite
  `maxIterationCount` (the loop then runs until its count reaches the next whole number, or until convergence);
  the model does not represent those values.
- Controller.Fit: when `maxIterationCount <= 0` the source returns the first diagram even if it is short of cells.
  The model reports such a diagram as `DegenerateDiagram`.
- Controller.Fit: an unknown heuristic code is reported as `UnknownVariant` as soon as an iteration would run. In the
  source, a map that earlier ran with a known code keeps that handler. The code has no setter, so it is always 1
  in practice.
- Overweight.Correct: the repair loop is bounded by `fuel`. Running out gives `CorrectionDiverges` where the
  source keeps looping.
- Adaptation.Adapt: the success clause under "every correction of that many sites settles"
  (`Overweight.Untroubled`) holds only for maps of fewer than two items. For two or more items, no repair budget
  settles every input under either variant (`Overweight.UntroubledOnlyBelowTwo`), so the clause says nothing
  there. What a failure means is stated instead: `Adaptation.Reposition`, `Adaptation.Reweigh` and
  `Adaptation.AdaptFailures` tie each error to the correction or the diagram that caused it.
- Controller.Fit: the same limit applies to its success clause and to those of `Controller.StepOutcome`,
  `Controller.IterateOutcome` and `Controller.Iterations`. `Controller.FitFailures` ties each error of a run to its
  first diagram, to the heuristic code, or to a failing pass (`Controller.Replay`).
- The starting power-weight `totalArea / (2n)` may be below `epsilon`. The epsilon floor is stated only for sites
  that went through at least one adapt (`Adaptation.Settled`), not for the first diagram.
- The default weight accessor (`d => d.weight`) and the default clipping polygon come from the caller of `Defaults`.

=== FILE: adaptation.dfy ===
/** One iteration of the fitting: move every site toward its cell's
    centroid, adapt every weight toward its targeted area, and correct
    overweighted pairs after each of the two phases. */
module Adaptation {
  import opened Sites
  import opened GeometryOracle
  import opened Overweight

  /** The flickering-mitigation ratio, in `[0, 1]`. */
  type Ratio = r: real | 0.0 <= r <= 1.0

  // ---------------------------------------------------------------------
  // Placement (`adaptPlacements`)
  // ---------------------------------------------------------------------

  /** `d = 1 - flickeringInfluence * ratio` with an influence of `0.5`. */
  function PlacementDamping(ratio: real): (d: real)
    ensures 0.0 <= ratio <= 1.0 ==> 0.5 <= d <= 1.0
    ensures ratio == 0.0 ==> d == 1.0
  {
    1.0 - 0.5 * ratio
  }

  /** `w * a` lies between `lo * w` and `hi * w`. */
  lemma MulBetween(w: real, a: real, lo: real, hi: real)
    requires w >= 0.0 && lo <= a <= hi
    ensures lo * w <= w * a <= hi * w
  {
    assert w * (a - lo) >= 0.0;
    assert w * (hi - a) >= 0.0;
  }

  /** `a = k s` with `s >= 0` and `k` in `[0, bound]` is at most `bound s`. */
  lemma ScaledAtMost(a: real, s: real, k: real, bound: real)
    requires a == k * s && s >= 0.0 && 0.0 <= k <= bound
    ensures a <= bound * s
  {
    MulBetween(s, k, 0.0, bound);
    assert s * k <= bound * s;
  }

  lemma SquareAtMost(f: real, bound: real)
    requires 0.0 <= f <= bound
    ensures 0.0 <= f * f <= bound * bound
  {
    MulBetween(f, f, 0.0, bound);
    MulBetween(bound, f, 0.0, bound);
    assert f * f <= bound * f;
    assert bound * f <= bound * bound;
  }

  /** Where a site lands when it moves `d` of the way toward `c`. */
  function Toward(p: Point, c: Point, d: real): (r: Point)
    ensures d == 0.0 ==> r == p
    ensures d == 1.0 ==> r == c
  {
    Point(p.x + d * (c.x - p.x), p.y + d * (c.y - p.y))
  }

  /** Moving `d` of the way toward `c` covers `d²` of the squared distance
      and leaves `(1 - d)²` of it. */
  lemma TowardDistances(p: Point, c: Point, d: real)
    ensures SquaredDistance(p, Toward(p, c, d)) == (d * d) * SquaredDistance(p, c)
    ensures SquaredDistance(Toward(p, c, d), c) == ((1.0 - d) * (1.0 - d)) * SquaredDistance(p, c)
  {
  }

  /** Moving `d` of the way from `p` toward `c`, with `d` in `[0.5, 1]`,
      covers no more than the whole way and leaves at most half of it. */
  lemma DampedStep(p: Point, c: Point, d: real)
    requires 0.5 <= d <= 1.0
    ensures SquaredDistance(p, Toward(p, c, d)) <= SquaredDistance(p, c)
    ensures 4.0 * SquaredDistance(Toward(p, c, d), c) <= SquaredDistance(p, c)
  {
    TowardDistances(p, c, d);
    SquareAtMost(d, 1.0);
    SquareAtMost(1.0 - d, 0.5);
    ScaledAtMost(SquaredDistance(p, Toward(p, c, d)), SquaredDistance(p, c), d * d, 1.0 * 1.0);
    ScaledAtMost(SquaredDistance(Toward(p, c, d), c), SquaredDistance(p, c), (1.0 - d) * (1.0 - d), 0.5 * 0.5);
  }

  /** Move `s` by `d * (centroid - position)`. */
  function PlaceSite(s: Site, centroid: Point, ratio: real): (r: Site)
    ensures r.index == s.index && r.targetedArea == s.targetedArea && r.weight == s.weight
    ensures 0.0 <= ratio <= 1.0 ==> SquaredDistance(s.pos, r.pos) <= SquaredDistance(s.pos, centroid)
    ensures 0.0 <= ratio <= 1.0 ==> 4.0 * SquaredDistance(r.pos, centroid) <= SquaredDistance(s.pos, centroid)
    ensures ratio == 0.0 ==> r.pos == centroid
  {
    var d := PlacementDamping(ratio);
    assert 0.0 <= ratio <= 1.0 ==> 0.5 <= d <= 1.0;
    DampedStepWhenDamped(s.pos, centroid, d);
    s.(pos := Toward(s.pos, centroid, d))
  }

  lemma DampedStepWhenDamped(p: Point, c: Point, d: real)
    ensures 0.5 <= d <= 1.0 ==> SquaredDistance(p, Toward(p, c, d)) <= SquaredDistance(p, c)
    ensures 0.5 <= d <= 1.0 ==> 4.0 * SquaredDistance(Toward(p, c, d), c) <= SquaredDistance(p, c)
  {
    if 0.5 <= d <= 1.0 {
      DampedStep(p, c, d);
    }
  }

  /** Every site moves toward its own cell's centroid; only positions change. */
  function AdaptPlacements(g: Oracle, cells: seq<Cell>, ratio: Ratio): (r: seq<Site>)
    ensures |r| == |cells|
    ensures forall k :: 0 <= k < |cells| ==>
              && r[k].index == cells[k].site.index
              && r[k].targetedArea == cells[k].site.targetedArea
              && r[k].weight == cells[k].site.weight
    ensures forall k :: 0 <= k < |cells| ==>
              4.0 * SquaredDistance(r[k].pos, g.centroid(cells[k].polygon))
                <= SquaredDistance(cells[k].site.pos, g.centroid(cells[k].polygon))
  {
    var r := seq(|cells|, k requires 0 <= k < |cells| => PlaceSite(cells[k].site, g.centroid(cells[k].polygon), ratio));
    assert forall k :: 0 <= k < |cells| ==> r[k] == PlaceSite(cells[k].site, g.centroid(cells[k].polygon), ratio);
    r
  }

  // ---------------------------------------------------------------------
  // Weights (`adaptWeights`)
  // ---------------------------------------------------------------------

  /** Lowest admissible adapt ratio, `(1 - 0.1) + 0.1 * ratio`. */
  function LowerRatioBound(ratio: real): (b: real)
    ensures 0.0 <= ratio <= 1.0 ==> 0.9 <= b <= 1.0
    ensures ratio == 0.0 ==> b == 0.9
  {
    (1.0 - 0.1) + 0.1 * ratio
  }

  /** Highest admissible adapt ratio, `(1 + 0.1) - 0.1 * ratio`. */
  function UpperRatioBound(ratio: real): (b: real)
    ensures 0.0 <= ratio <= 1.0 ==> 1.0 <= b <= 1.1
    ensures ratio == 0.0 ==> b == 1.1
    // the two bounds lie symmetrically around 1
    ensures b + LowerRatioBound(ratio) == 2.0
  {
    (1.0 + 0.1) - 0.1 * ratio
  }

  /** `Math.min(Math.max(raw, lower), upper)`: the min is applied last. */
  function ClampRatio(raw: real, ratio: real): (a: real)
    ensures a <= UpperRatioBound(ratio)
    ensures LowerRatioBound(ratio) <= UpperRatioBound(ratio) ==> LowerRatioBound(ratio) <= a
    ensures LowerRatioBound(ratio) <= raw <= UpperRatioBound(ratio) ==> a == raw
    ensures raw < LowerRatioBound(ratio) <= UpperRatioBound(ratio) ==> a == LowerRatioBound(ratio)
    ensures UpperRatioBound(ratio) < raw ==> a == UpperRatioBound(ratio)
    ensures UpperRatioBound(ratio) < LowerRatioBound(ratio) ==> a == UpperRatioBound(ratio)
  {
    Min(Max(raw, LowerRatioBound(ratio)), UpperRatioBound(ratio))
  }

  /** `max(weight * clampedRatio, epsilon)` with the ratio `targetedArea / currentArea`. */
  function AdaptedWeight(w: real, targetedArea: real, currentArea: real, ratio: real): (a: real)
    requires currentArea > 0.0
    ensures a >= Epsilon && a >= w * ClampRatio(targetedArea / currentArea, ratio)
    ensures a == Epsilon || a == w * ClampRatio(targetedArea / currentArea, ratio)
  {
    Max(w * ClampRatio(targetedArea / currentArea, ratio), Epsilon)
  }

  /** With a ratio in `[0, 1]` the clamped ratio lies in `[0.9, 1.1]`, is at
      least 1 when the raw ratio is, and at most 1 when the raw ratio is. */
  lemma ClampRatioBounds(raw: real, ratio: real)
    requires 0.0 <= ratio <= 1.0
    ensures 0.9 <= ClampRatio(raw, ratio) <= 1.1
    ensures raw >= 1.0 ==> ClampRatio(raw, ratio) >= 1.0
    ensures raw <= 1.0 ==> ClampRatio(raw, ratio) <= 1.0
  {
  }

  /** Weighting by a ratio `a` in `[0.9, 1.1]`, then flooring at `epsilon`. */
  lemma ScaledWeightBounds(w: real, a: real)
    requires w >= 0.0 && 0.9 <= a <= 1.1
    ensures 0.9 * w <= Max(w * a, Epsilon) <= Max(1.1 * w, Epsilon)
    ensures a >= 1.0 ==> w <= Max(w * a, Epsilon)
    ensures a <= 1.0 ==> Max(w * a, Epsilon) <= Max(w, Epsilon)
  {
    if a >= 1.0 {
      MulBetween(w, a, 1.0, 1.1);
      assert 0.9 * w <= w;
    } else {
      MulBetween(w, a, 0.9, 1.0);
      assert w * a <= w;
      assert w <= 1.1 * w;
      assert w * a <= 1.1 * w;
    }
  }

  /** Adapting a weight changes it by at most 10% (the floor aside), never
      lowers it for a cell smaller than its target and never raises it above
      the floor for a cell larger than its target. */
  lemma AdaptedWeightBounds(w: real, targetedArea: real, currentArea: real, ratio: real)
    requires currentArea > 0.0
    ensures w >= 0.0 && 0.0 <= ratio <= 1.0 ==>
              0.9 * w <= AdaptedWeight(w, targetedArea, currentArea, ratio) <= Max(1.1 * w, Epsilon)
    ensures w >= 0.0 && 0.0 <= ratio <= 1.0 && targetedArea >= currentArea ==>
              w <= AdaptedWeight(w, targetedArea, currentArea, ratio)
    ensures w >= 0.0 && 0.0 <= ratio <= 1.0 && targetedArea <= currentArea ==>
              AdaptedWeight(w, targetedArea, currentArea, ratio) <= Max(w, Epsilon)
    ensures 0.0 <= ratio <= 1.0 && targetedArea == currentArea ==>
              AdaptedWeight(w, targetedArea, currentArea, ratio) == Max(w, Epsilon)
  {
    if 0.0 <= ratio <= 1.0 {
      var q := targetedArea / currentArea;
      var a := ClampRatio(q, ratio);
      QuotientAgainstOne(targetedArea, currentArea);
      ClampRatioBounds(q, ratio);
      assert AdaptedWeight(w, targetedArea, currentArea, ratio) == Max(w * a, Epsilon);
      if w >= 0.0 {
        ScaledWeightBounds(w, a);
      }
      if targetedArea == currentArea {
        assert a == 1.0;
      }
    }
  }

  /** A quotient by a positive number compares with 1 as the dividend compares with the divisor. */
  lemma QuotientAgainstOne(a: real, b: real)
    requires b > 0.0
    ensures a >= b ==> a / b >= 1.0
    ensures a <= b ==> a / b <= 1.0
    ensures a == b ==> a / b == 1.0
  {
    var q := a / b;
    assert (q - 1.0) * b == a - b;
  }

  function AdaptWeight(s: Site, currentArea: real, ratio: real): (r: Site)
    requires currentArea > 0.0
    ensures r.index == s.index && r.targetedArea == s.targetedArea && r.pos == s.pos
    ensures r.weight >= Epsilon
    // at most a 10% change per iteration, the floor aside
    ensures 0.0 <= ratio <= 1.0 && s.weight >= 0.0 ==>
              0.9 * s.weight <= r.weight <= Max(1.1 * s.weight, Epsilon)
    // a cell too small never loses weight, a cell too large never gains any
    ensures 0.0 <= ratio <= 1.0 && s.weight >= 0.0 && s.targetedArea >= currentArea ==> r.weight >= s.weight
    ensures 0.0 <= ratio <= 1.0 && s.weight >= 0.0 && s.targetedArea <= currentArea ==>
              r.weight <= Max(s.weight, Epsilon)
    ensures 0.0 <= ratio <= 1.0 && s.targetedArea == currentArea ==> r.weight == Max(s.weight, Epsilon)
  {
    AdaptedWeightBounds(s.weight, s.targetedArea, currentArea, ratio);
    s.(weight := AdaptedWeight(s.weight, s.targetedArea, currentArea, ratio))
  }

  function AdaptWeights(g: Oracle, cells: seq<Cell>, ratio: Ratio): (r: seq<Site>)
    requires PositiveCells(g, cells)
    ensures |r| == |cells|
    ensures AtLeastEpsilon(r)
    ensures forall k :: 0 <= k < |cells| ==>
              && r[k].index == cells[k].site.index
              && r[k].targetedArea == cells[k].site.targetedArea
              && r[k].pos == cells[k].site.pos
    ensures forall k :: 0 <= k < |cells| && cells[k].site.weight >= 0.0 ==>
              0.9 * cells[k].site.weight <= r[k].weight <= Max(1.1 * cells[k].site.weight, Epsilon)
  {
    seq(|cells|, k requires 0 <= k < |cells| => AdaptWeight(cells[k].site, g.area(cells[k].polygon), ratio))
  }

  // ---------------------------------------------------------------------
  // Error (`computeAreaError`)
  // ---------------------------------------------------------------------

  function CellError(g: Oracle, c: Cell): real
  {
    Abs(c.site.targetedArea - g.area(c.polygon))
  }

  /** Sum over all cells of `|targetedArea - currentArea|`. */
  function AreaError(g: Oracle, cells: seq<Cell>): (e: real)
    ensures e >= 0.0
  {
    if |cells| == 0 then 0.0 else CellError(g, cells[0]) + AreaError(g, cells[1..])
  }

  /** The error vanishes exactly when every cell has its targeted area. */
  lemma {:induction false} AreaErrorZeroIff(g: Oracle, cells: seq<Cell>)
    ensures AreaError(g, cells) == 0.0 <==>
              forall k :: 0 <= k < |cells| ==> g.area(cells[k].polygon) == cells[k].site.targetedArea
  {
    if |cells| > 0 {
      AreaErrorZeroIff(g, cells[1..]);
      assert forall k :: 1 <= k < |cells| ==> cells[k] == cells[1..][k - 1];
    }
  }

  /** The error bounds every single cell's error. */
  lemma {:induction false} AreaErrorBoundsCells(g: Oracle, cells: seq<Cell>, k: nat)
    requires k < |cells|
    ensures Abs(cells[k].site.targetedArea - g.area(cells[k].polygon)) <= AreaError(g, cells)
  {
    if k > 0 {
      AreaErrorBoundsCells(g, cells[1..], k - 1);
    }
  }

  // ---------------------------------------------------------------------
  // One iteration (`adapt`)
  // ---------------------------------------------------------------------

  /** Every site weighs at least `epsilon` and no two sites of the cells
      violate the overweight condition. */
  predicate Settled(cells: seq<Cell>)
  {
    && (forall k :: 0 <= k < |cells| ==> cells[k].site.weight >= Epsilon)
    && (forall a, b :: 0 <= a < b < |cells| ==> !Violates(cells[a].site, cells[b].site))
  }

  /** Cells whose sites all come from a corrected, floored site sequence are settled. */
  lemma CellsOfSettledSites(cells: seq<Cell>, sites: seq<Site>)
    requires NoViolation(sites) && AtLeastEpsilon(sites)
    requires forall k :: 0 <= k < |cells| ==> cells[k].site in sites
    ensures Settled(cells)
  {
    forall a, b | 0 <= a < b < |cells|
      ensures !Violates(cells[a].site, cells[b].site)
    {
      NoViolationMembers(sites, cells[a].site, cells[b].site);
    }
  }

  /** `s` carries the identity (index and targeted area) of one of the cells' sites. */
  predicate IdentityIn(s: Site, cells: seq<Cell>)
  {
    exists j :: 0 <= j < |cells| && cells[j].site.index == s.index && cells[j].site.targetedArea == s.targetedArea
  }

  /** Sites that keep the identities of `sites`, each of which carries an
      identity of `cells`, carry identities of `cells` too. */
  lemma IdentitiesCarried(cells: seq<Cell>, sites: seq<Site>, result: seq<Cell>)
    requires forall m :: 0 <= m < |sites| ==> IdentityIn(sites[m], cells)
    requires forall k :: 0 <= k < |result| ==> result[k].site in sites
    ensures forall k :: 0 <= k < |result| ==> IdentityIn(result[k].site, cells)
  {
    forall k | 0 <= k < |result|
      ensures IdentityIn(result[k].site, cells)
    {
      var m :| 0 <= m < |sites| && sites[m] == result[k].site;
      assert IdentityIn(sites[m], cells);
    }
  }

  /** Identities survive a step that keeps every site's index and target in place. */
  lemma IdentitiesInPlace(cells: seq<Cell>, before: seq<Site>, after: seq<Site>)
    requires SamePlaces(before, after)
    requires forall m :: 0 <= m < |before| ==> IdentityIn(before[m], cells)
    ensures forall m :: 0 <= m < |after| ==> IdentityIn(after[m], cells)
  {
    forall m | 0 <= m < |after|
      ensures IdentityIn(after[m], cells)
    {
      assert IdentityIn(before[m], cells);
    }
  }

  /** `adapt`: move the sites and correct them, recompute the diagram, adapt
      the weights and correct them, recompute the diagram again. A diagram
      short of cells, or a correction that does not settle, ends the run. */
  function Adapt(g: Oracle, clip: seq<Point>, v: Variant, fuel: nat, cells: seq<Cell>, ratio: Ratio)
    : (r: Result<seq<Cell>>)
    ensures r.Ok? ==> |r.value| == |cells| && Settled(r.value) && PositiveCells(g, r.value)
    // only positions and weights change: every site keeps an identity it had
    ensures r.Ok? ==> forall k :: 0 <= k < |r.value| ==> IdentityIn(r.value[k].site, cells)
    // each item keeps exactly one cell, with its targeted area
    ensures r.Ok? ==> forall t :: Tracks(cells, t) ==> Tracks(r.value, t)
    ensures r.Err? ==> r.error == DegenerateDiagram || r.error == CorrectionDiverges
    // a construction that never loses a cell leaves only the corrections to fail
    ensures Complete(g) && r.Err? ==> r.error == CorrectionDiverges
    ensures Complete(g) && Untroubled(v, fuel, |cells|) ==> r.Ok?
    // every site has covered at least half the way to its old cell's centroid
    ensures r.Ok? ==> forall k :: 0 <= k < |r.value| ==> HalfwayFrom(g, cells, r.value[k].site)
    // both phases ran: each site is the corrected reweighed site of a repositioned cell
    ensures r.Ok? ==>
              && Reposition(g, clip, v, fuel, cells, ratio).Ok?
              && Correct(v, AdaptWeights(g, Reposition(g, clip, v, fuel, cells, ratio).value, ratio), fuel).Ok?
              && forall k :: 0 <= k < |r.value| ==>
                   && r.value[k].origin < |Reposition(g, clip, v, fuel, cells, ratio).value|
                   && r.value[k].site
                        == Correct(v, AdaptWeights(g, Reposition(g, clip, v, fuel, cells, ratio).value, ratio), fuel)
                             .value[r.value[k].origin]
  {
    var placedCells :- Reposition(g, clip, v, fuel, cells, ratio);
    var result :- Reweigh(g, clip, v, fuel, placedCells, ratio);
    IdentitiesCompose(cells, placedCells, result);
    PlacementsCompose(g, cells, placedCells, result);
    Ok(result)
  }

  /** What each failure of `adapt` means: a failed correction is one of the
      two phases' corrections failing, a short diagram is one of the two
      rebuilds losing a cell. */
  lemma AdaptFailures(g: Oracle, clip: seq<Point>, v: Variant, fuel: nat, cells: seq<Cell>, ratio: Ratio)
    ensures Adapt(g, clip, v, fuel, cells, ratio) == Err(CorrectionDiverges) ==>
              || Correct(v, AdaptPlacements(g, cells, ratio), fuel).Err?
              || (&& Reposition(g, clip, v, fuel, cells, ratio).Ok?
                  && Correct(v, AdaptWeights(g, Reposition(g, clip, v, fuel, cells, ratio).value, ratio), fuel).Err?)
    ensures Adapt(g, clip, v, fuel, cells, ratio) == Err(DegenerateDiagram) ==>
              || (&& Correct(v, AdaptPlacements(g, cells, ratio), fuel).Ok?
                  && |g.diagram(clip, Correct(v, AdaptPlacements(g, cells, ratio), fuel).value)| < |cells|)
              || (&& Reposition(g, clip, v, fuel, cells, ratio).Ok?
                  && Correct(v, AdaptWeights(g, Reposition(g, clip, v, fuel, cells, ratio).value, ratio), fuel).Ok?
                  && |g.diagram(clip, Correct(v, AdaptWeights(g, Reposition(g, clip, v, fuel, cells, ratio).value, ratio), fuel).value)|
                       < |cells|)
  {
    var placed := Reposition(g, clip, v, fuel, cells, ratio);
    if placed.Ok? {
      var weighed := Reweigh(g, clip, v, fuel, placed.value, ratio);
      assert |placed.value| == |cells|;
      assert weighed.Err? ==> Adapt(g, clip, v, fuel, cells, ratio) == weighed;
    } else {
      assert Adapt(g, clip, v, fuel, cells, ratio) == placed;
    }
  }

  /** `s` carries the index of one of the cells' sites and lies at most half
      as far from that cell's centroid as the cell's site. */
  predicate HalfwayFrom(g: Oracle, cells: seq<Cell>, s: Site)
  {
    exists j :: && 0 <= j < |cells|
                && cells[j].site.index == s.index
                && 4.0 * SquaredDistance(s.pos, g.centroid(cells[j].polygon))
                     <= SquaredDistance(cells[j].site.pos, g.centroid(cells[j].polygon))
  }

  /** A site that kept the position and index of a cell that covered half
      the way to its old cell's centroid has covered that half too. */
  lemma PlacementsCompose(g: Oracle, cells: seq<Cell>, placed: seq<Cell>, result: seq<Cell>)
    requires forall m :: 0 <= m < |placed| ==>
               && placed[m].origin < |cells|
               && placed[m].site.index == cells[placed[m].origin].site.index
               && 4.0 * SquaredDistance(placed[m].site.pos, g.centroid(cells[placed[m].origin].polygon))
                    <= SquaredDistance(cells[placed[m].origin].site.pos, g.centroid(cells[placed[m].origin].polygon))
    requires forall k :: 0 <= k < |result| ==>
               && result[k].origin < |placed|
               && result[k].site.index == placed[result[k].origin].site.index
               && result[k].site.pos == placed[result[k].origin].site.pos
    ensures forall k :: 0 <= k < |result| ==> HalfwayFrom(g, cells, result[k].site)
  {
    forall k | 0 <= k < |result|
      ensures HalfwayFrom(g, cells, result[k].site)
    {
      var m := result[k].origin;
      var j := placed[m].origin;
      assert result[k].site.pos == placed[m].site.pos;
      assert 0 <= j < |cells| && cells[j].site.index == result[k].site.index;
    }
  }

  /** First phase of `adapt`: move every site toward its cell's centroid,
      correct the moved sites, rebuild the diagram. */
  function Reposition(g: Oracle, clip: seq<Point>, v: Variant, fuel: nat, cells: seq<Cell>, ratio: Ratio)
    : (r: Result<seq<Cell>>)
    ensures r.Ok? ==> |r.value| == |cells| && PositiveCells(g, r.value)
    ensures r.Ok? ==> forall k :: 0 <= k < |r.value| ==> IdentityIn(r.value[k].site, cells)
    ensures r.Ok? ==> forall t :: Tracks(cells, t) ==> Tracks(r.value, t)
    ensures r.Err? ==> r.error == DegenerateDiagram || r.error == CorrectionDiverges
    ensures Complete(g) && r.Err? ==> r.error == CorrectionDiverges
    ensures Complete(g) && Untroubled(v, fuel, |cells|) ==> r.Ok?
    // what each outcome means: the correction of the moved sites fails, or
    // the diagram of the corrected sites is short of cells, or neither
    ensures Correct(v, AdaptPlacements(g, cells, ratio), fuel).Err? <==> r == Err(CorrectionDiverges)
    ensures Correct(v, AdaptPlacements(g, cells, ratio), fuel).Ok? ==>
              ((r == Err(DegenerateDiagram))
                 <==> (|g.diagram(clip, Correct(v, AdaptPlacements(g, cells, ratio), fuel).value)| < |cells|))
    // each new cell belongs to a moved-and-corrected site
    ensures r.Ok? ==> forall k :: 0 <= k < |r.value| ==>
              && r.value[k].origin < |cells|
              && r.value[k].site == Correct(v, AdaptPlacements(g, cells, ratio), fuel).value[r.value[k].origin]
    // so each site has covered at least half the way to its old cell's centroid
    ensures r.Ok? ==> forall k :: 0 <= k < |r.value| ==>
              && r.value[k].origin < |cells|
              && r.value[k].site.index == cells[r.value[k].origin].site.index
              && 4.0 * SquaredDistance(r.value[k].site.pos, g.centroid(cells[r.value[k].origin].polygon))
                   <= SquaredDistance(cells[r.value[k].origin].site.pos, g.centroid(cells[r.value[k].origin].polygon))
  {
    var moved := AdaptPlacements(g, cells, ratio);
    var placed :- Correct(v, moved, fuel);
    var placedCells :- Diagram(g, clip, placed);
    RebuiltKeepsIdentities(cells, moved, placed, placedCells);
    TracksThroughDiagram(cells, placed, placedCells);
    Ok(placedCells)
  }

  /** Second phase of `adapt`: adapt every weight toward its targeted area,
      correct the reweighed sites, rebuild the diagram. */
  function Reweigh(g: Oracle, clip: seq<Point>, v: Variant, fuel: nat, cells: seq<Cell>, ratio: Ratio)
    : (r: Result<seq<Cell>>)
    requires PositiveCells(g, cells)
    ensures r.Ok? ==> |r.value| == |cells| && Settled(r.value) && PositiveCells(g, r.value)
    ensures r.Ok? ==> forall k :: 0 <= k < |r.value| ==> IdentityIn(r.value[k].site, cells)
    ensures r.Ok? ==> forall t :: Tracks(cells, t) ==> Tracks(r.value, t)
    ensures r.Err? ==> r.error == DegenerateDiagram || r.error == CorrectionDiverges
    ensures Complete(g) && r.Err? ==> r.error == CorrectionDiverges
    ensures Complete(g) && Untroubled(v, fuel, |cells|) ==> r.Ok?
    // what each outcome means, as for `Reposition`
    ensures Correct(v, AdaptWeights(g, cells, ratio), fuel).Err? <==> r == Err(CorrectionDiverges)
    ensures Correct(v, AdaptWeights(g, cells, ratio), fuel).Ok? ==>
              ((r == Err(DegenerateDiagram))
                 <==> (|g.diagram(clip, Correct(v, AdaptWeights(g, cells, ratio), fuel).value)| < |cells|))
    ensures r.Ok? ==> forall k :: 0 <= k < |r.value| ==>
              && r.value[k].origin < |cells|
              && r.value[k].site == Correct(v, AdaptWeights(g, cells, ratio), fuel).value[r.value[k].origin]
    // no site moves in this phase
    ensures r.Ok? ==> forall k :: 0 <= k < |r.value| ==>
              && r.value[k].origin < |cells|
              && r.value[k].site.index == cells[r.value[k].origin].site.index
              && r.value[k].site.pos == cells[r.value[k].origin].site.pos
  {
    var adapted := AdaptWeights(g, cells, ratio);
    var weighted :- Correct(v, adapted, fuel);
    var result :- Diagram(g, clip, weighted);
    CellsOfSettledSites(result, weighted);
    RebuiltKeepsIdentities(cells, adapted, weighted, result);
    TracksThroughDiagram(cells, weighted, result);
    Ok(result)
  }

  /** Sites that keep the indexes and targets of tracked cells, rebuilt into
      a diagram, give tracked cells again. */
  lemma TracksThroughDiagram(before: seq<Cell>, sites: seq<Site>, after: seq<Cell>)
    requires |sites| == |before|
    requires forall k :: 0 <= k < |sites| ==>
               sites[k].index == before[k].site.index && sites[k].targetedArea == before[k].site.targetedArea
    requires |after| == |sites|
    requires forall k :: 0 <= k < |after| ==> after[k].origin < |sites| && after[k].site == sites[after[k].origin]
    requires forall a, b :: 0 <= a < b < |after| ==> after[a].origin != after[b].origin
    ensures forall t :: Tracks(before, t) ==> Tracks(after, t)
  {
    forall t | Tracks(before, t)
      ensures Tracks(after, t)
    {
      forall a, b | 0 <= a < b < |after|
        ensures after[a].site.index != after[b].site.index
      {
        var oa, ob := after[a].origin, after[b].origin;
        if oa < ob {
          assert before[oa].site.index != before[ob].site.index;
        } else {
          assert before[ob].site.index != before[oa].site.index;
        }
      }
    }
  }

  /** A step that keeps each site's index and target, a correction, and a
      rebuild of the diagram leave every cell with an identity it had. */
  lemma RebuiltKeepsIdentities(cells: seq<Cell>, stepped: seq<Site>, corrected: seq<Site>, rebuilt: seq<Cell>)
    requires |stepped| == |cells|
    requires forall k :: 0 <= k < |cells| ==>
               stepped[k].index == cells[k].site.index && stepped[k].targetedArea == cells[k].site.targetedArea
    requires SamePlaces(stepped, corrected)
    requires forall k :: 0 <= k < |rebuilt| ==> rebuilt[k].site in corrected
    ensures forall k :: 0 <= k < |rebuilt| ==> IdentityIn(rebuilt[k].site, cells)
  {
    assert forall m :: 0 <= m < |stepped| ==> IdentityIn(stepped[m], cells);
    IdentitiesInPlace(cells, stepped, corrected);
    IdentitiesCarried(cells, corrected, rebuilt);
  }

  /** Carrying an identity is transitive across two steps. */
  lemma IdentitiesCompose(cells: seq<Cell>, middle: seq<Cell>, result: seq<Cell>)
    requires forall m :: 0 <= m < |middle| ==> IdentityIn(middle[m].site, cells)
    requires forall k :: 0 <= k < |result| ==> IdentityIn(result[k].site, middle)
    ensures forall k :: 0 <= k < |result| ==> IdentityIn(result[k].site, cells)
  {
    forall k | 0 <= k < |result|
      ensures IdentityIn(result[k].site, cells)
    {
      assert IdentityIn(result[k].site, middle);
      var m :| 0 <= m < |middle| && middle[m].site.index == result[k].site.index
               && middle[m].site.targetedArea == result[k].site.targetedArea;
      assert IdentityIn(middle[m].site, cells);
    }
  }
}

=== FILE: controller.dfy ===
/** The fitting run (`_voronoiMap(data)`) and its configuration: initialize,
    then adapt the sites until the total area error falls below the
    convergence threshold or the iteration budget is spent. */
module Controller {
  import opened Sites
  import opened GeometryOracle
  import opened Overweight
  import opened Adaptation
  import opened Initialization

  const DefaultConvergenceRatio: real := 0.01
  const DefaultMaxIterationCount: int := 50
  const DefaultMinWeightRatio: real := 0.01
  /** The overweight heuristic used by every run; it has no setter. */
  const DefaultOverweightedVariant: int := 1

  // ---------------------------------------------------------------------
  // Configuration (the chained getter/setter accessors)
  // ---------------------------------------------------------------------

  /** The options of a map. `tick` is the per-iteration hook; its return
      value is ignored by the run. */
  datatype Config<-T> = Config(
    weight: T -> real,
    convergenceRatio: real,
    maxIterationCount: int,
    minWeightRatio: real,
    tick: (seq<Cell>, nat) -> bool,
    clip: seq<Point>,
    overweightedVariant: int)

  /** A fresh map; the default weight accessor and clipping polygon come from
      the caller. */
  function Defaults<T>(weight: T -> real, clip: seq<Point>): (c: Config<T>)
    ensures c.convergenceRatio == 0.01 && c.maxIterationCount == 50 && c.minWeightRatio == 0.01
    ensures c.overweightedVariant == 1
    ensures SelectVariant(c.overweightedVariant) == Some(RaiseLight)
    ensures c.weight == weight && c.clip == clip
  {
    Config(weight, DefaultConvergenceRatio, DefaultMaxIterationCount, DefaultMinWeightRatio,
           (polygons, i) => true, clip, DefaultOverweightedVariant)
  }

  // Each setter is read back by its getter and leaves every other option as it was.

  function SetWeight<T>(c: Config<T>, weight: T -> real): (r: Config<T>)
    ensures r.weight == weight && r.(weight := c.weight) == c
  {
    c.(weight := weight)
  }

  function SetConvergenceRatio<T>(c: Config<T>, ratio: real): (r: Config<T>)
    ensures r.convergenceRatio == ratio && r.(convergenceRatio := c.convergenceRatio) == c
  {
    c.(convergenceRatio := ratio)
  }

  function SetMaxIterationCount<T>(c: Config<T>, count: int): (r: Config<T>)
    ensures r.maxIterationCount == count && r.(maxIterationCount := c.maxIterationCount) == c
  {
    c.(maxIterationCount := count)
  }

  function SetMinWeightRatio<T>(c: Config<T>, ratio: real): (r: Config<T>)
    ensures r.minWeightRatio == ratio && r.(minWeightRatio := c.minWeightRatio) == c
  {
    c.(minWeightRatio := ratio)
  }

  function SetTick<T>(c: Config<T>, tick: (seq<Cell>, nat) -> bool): (r: Config<T>)
    ensures r.tick == tick && r.(tick := c.tick) == c
  {
    c.(tick := tick)
  }

  function SetClip<T>(c: Config<T>, clip: seq<Point>): (r: Config<T>)
    ensures r.clip == clip && r.(clip := c.clip) == c
  {
    c.(clip := clip)
  }

  /** Setting an option to its current value changes nothing, and of two
      settings of one option the last one wins. */
  lemma AccessorsRoundTrip<T>(c: Config<T>, w: T -> real, w': T -> real, ratio: real, ratio': real,
                              count: int, count': int, tick: (seq<Cell>, nat) -> bool,
                              tick': (seq<Cell>, nat) -> bool, clip: seq<Point>, clip': seq<Point>)
    ensures SetWeight(c, c.weight) == c && SetConvergenceRatio(c, c.convergenceRatio) == c
    ensures SetMaxIterationCount(c, c.maxIterationCount) == c && SetMinWeightRatio(c, c.minWeightRatio) == c
    ensures SetTick(c, c.tick) == c && SetClip(c, c.clip) == c
    ensures SetWeight(SetWeight(c, w), w') == SetWeight(c, w')
    ensures SetConvergenceRatio(SetConvergenceRatio(c, ratio), ratio') == SetConvergenceRatio(c, ratio')
    ensures SetMaxIterationCount(SetMaxIterationCount(c, count), count') == SetMaxIterationCount(c, count')
    ensures SetMinWeightRatio(SetMinWeightRatio(c, ratio), ratio') == SetMinWeightRatio(c, ratio')
    ensures SetTick(SetTick(c, tick), tick') == SetTick(c, tick')
    ensures SetClip(SetClip(c, clip), clip') == SetClip(c, clip')
  {
  }

  // ---------------------------------------------------------------------
  // The run
  // ---------------------------------------------------------------------

  /** The data weights, through the configured accessor. */
  function RawWeights<T>(weight: T -> real, data: seq<T>): (raw: seq<real>)
    ensures |raw| == |data|
    ensures forall k :: 0 <= k < |data| ==> raw[k] == weight(data[k])
  {
    seq(|data|, k requires 0 <= k < |data| => weight(data[k]))
  }

  /** `Math.abs(polygonArea(clip))`: the area to share, whatever the
      orientation of the clipping polygon. */
  function TotalArea(g: Oracle, clip: seq<Point>): (a: real)
    ensures a >= 0.0
    ensures a == g.area(clip) || a == -g.area(clip)
  {
    Abs(g.area(clip))
  }

  /** The state of the loop: the current cells and the error measured after
      each iteration so far, oldest first (the history the flickering
      mitigation is fed). */
  datatype Run = Run(cells: seq<Cell>, areaErrors: seq<real>)

  /** The last measured error is the area error of the run's cells. */
  predicate Measured(g: Oracle, run: Run)
  {
    |run.areaErrors| > 0 ==> run.areaErrors[|run.areaErrors| - 1] == AreaError(g, run.cells)
  }

  /** `areaErrorTreshold`: the error below which the run has converged. */
  function Threshold(convergenceRatio: real, totalArea: real): (t: real)
    ensures convergenceRatio >= 0.0 && totalArea >= 0.0 ==> t >= 0.0
    ensures totalArea > 0.0 ==> t / totalArea == convergenceRatio
  {
    convergenceRatio * totalArea
  }

  /** The loop's exit test: the last measured error is below the threshold. */
  predicate Converged(errors: seq<real>, threshold: real)
  {
    |errors| > 0 && errors[|errors| - 1] < threshold
  }

  /** With a positive total area, the exit test against `convergenceRatio * totalArea`
      holds exactly when the last error relative to the total area is below the ratio. */
  lemma ConvergedIffRatio(errors: seq<real>, convergenceRatio: real, totalArea: real)
    requires totalArea > 0.0
    ensures Converged(errors, Threshold(convergenceRatio, totalArea)) <==>
              |errors| > 0 && errors[|errors| - 1] / totalArea < convergenceRatio
  {
    if |errors| > 0 {
      RatioBelowThreshold(errors[|errors| - 1], convergenceRatio, totalArea);
    }
  }

  /** Errors at or above the threshold before the last one stay so when a
      new error is recorded after a last error that did not converge. */
  lemma StillAboveThreshold(errors: seq<real>, measured: seq<real>, threshold: real)
    requires forall k :: 0 <= k < |errors| - 1 ==> errors[k] >= threshold
    requires !Converged(errors, threshold)
    requires errors <= measured && |measured| == |errors| + 1
    ensures forall k :: 0 <= k < |measured| - 1 ==> measured[k] >= threshold
  {
    forall k | 0 <= k < |measured| - 1
      ensures measured[k] >= threshold
    {
      assert measured[k] == errors[k];
    }
  }

  /** One pass of the loop body: adapt the cells, then measure and record
      their area error. */
  function Step(g: Oracle, clip: seq<Point>, v: Variant, fuel: nat, ratio: Ratio, run: Run): (r: Result<Run>)
    ensures r.Ok? ==> |r.value.cells| == |run.cells| && Settled(r.value.cells)
    ensures r.Ok? ==> Measured(g, r.value)
    ensures r.Ok? ==> |r.value.areaErrors| == |run.areaErrors| + 1
    ensures r.Ok? ==> run.areaErrors <= r.value.areaErrors
    ensures r.Err? ==> r.error == DegenerateDiagram || r.error == CorrectionDiverges
  {
    var next :- Adapt(g, clip, v, fuel, run.cells, ratio);
    var measured := run.areaErrors + [AreaError(g, next)];
    Ok(Run(next, measured))
  }

  /** A pass keeps each item's one cell and its targeted area; with a
      construction that never loses a cell only a correction can fail it. */
  lemma StepOutcome(g: Oracle, clip: seq<Point>, v: Variant, fuel: nat, ratio: Ratio, run: Run)
    ensures var r := Step(g, clip, v, fuel, ratio, run);
            r.Ok? ==> forall t :: Tracks(run.cells, t) ==> Tracks(r.value.cells, t)
    ensures var r := Step(g, clip, v, fuel, ratio, run);
            Complete(g) && r.Err? ==> r.error == CorrectionDiverges
    ensures var r := Step(g, clip, v, fuel, ratio, run);
            Complete(g) && Untroubled(v, fuel, |run.cells|) ==> r.Ok?
    // a failed pass is a failed adapt, with the same error
    ensures var r := Step(g, clip, v, fuel, ratio, run);
            r.Err? ==> Adapt(g, clip, v, fuel, run.cells, ratio) == Err(r.error)
  {
    var _ := Adapt(g, clip, v, fuel, run.cells, ratio);
  }

  /** The run after `k` passes from `cells` and `errors`, with no exit test;
      the first pass that fails ends the replay with its error. */
  function Replay(g: Oracle, clip: seq<Point>, v: Variant, fuel: nat,
                  flicker: (real, seq<real>) -> Ratio, totalArea: real,
                  cells: seq<Cell>, errors: seq<real>, k: nat): (r: Result<Run>)
    ensures r.Ok? ==> |r.value.areaErrors| == |errors| + k && errors <= r.value.areaErrors
    ensures r.Ok? ==> |r.value.cells| == |cells|
    ensures r.Err? ==> k > 0
    decreases k
  {
    if k == 0 then Ok(Run(cells, errors))
    else
      var next :- Step(g, clip, v, fuel, flicker(totalArea, errors), Run(cells, errors));
      Replay(g, clip, v, fuel, flicker, totalArea, next.cells, next.areaErrors, k - 1)
  }

  /** The `while (!(converged || iterationCount >= maxIterationCount))` loop,
      entered with `|errors|` iterations done. `flicker` stands for the
      flickering-mitigation ratio, a function of the total area and the
      errors measured so far. */
  predicate Finished(g: Oracle, threshold: real, maxIterationCount: nat, cells: seq<Cell>, errors: seq<real>, run: Run)
  {
    && |errors| <= |run.areaErrors| <= maxIterationCount
    && errors <= run.areaErrors
    && |run.cells| == |cells|
    && (Converged(run.areaErrors, threshold) || |run.areaErrors| == maxIterationCount)
    && (forall k :: 0 <= k < |run.areaErrors| - 1 ==> run.areaErrors[k] >= threshold)
    && Measured(g, run)
    && (|run.areaErrors| > 0 ==> Settled(run.cells))
    && (|run.areaErrors| == 0 ==> run.cells == cells)
  }

  function Iterate(g: Oracle, clip: seq<Point>, v: Variant, fuel: nat,
                   flicker: (real, seq<real>) -> Ratio, totalArea: real, threshold: real,
                   maxIterationCount: nat, cells: seq<Cell>, errors: seq<real>): (r: Result<Run>)
    requires |errors| <= maxIterationCount
    requires forall k :: 0 <= k < |errors| - 1 ==> errors[k] >= threshold
    requires Measured(g, Run(cells, errors)) && (|errors| > 0 ==> Settled(cells))
    ensures r.Ok? ==> Finished(g, threshold, maxIterationCount, cells, errors, r.value)
    ensures r.Err? ==> r.error == DegenerateDiagram || r.error == CorrectionDiverges
    decreases maxIterationCount - |errors|
  {
    if Converged(errors, threshold) || |errors| == maxIterationCount then Ok(Run(cells, errors))
    else
      var next :- Step(g, clip, v, fuel, flicker(totalArea, errors), Run(cells, errors));
      StillAboveThreshold(errors, next.areaErrors, threshold);
      Iterate(g, clip, v, fuel, flicker, totalArea, threshold, maxIterationCount, next.cells, next.areaErrors)
  }

  /** Every pass of the loop keeps each item's one cell and its targeted
      area; with a construction that never loses a cell only a correction
      can end the loop early, and corrections that settle let it finish. */
  lemma {:induction false} IterateOutcome(g: Oracle, clip: seq<Point>, v: Variant, fuel: nat,
                                          flicker: (real, seq<real>) -> Ratio, totalArea: real, threshold: real,
                                          maxIterationCount: nat, cells: seq<Cell>, errors: seq<real>)
    requires |errors| <= maxIterationCount
    requires forall k :: 0 <= k < |errors| - 1 ==> errors[k] >= threshold
    requires Measured(g, Run(cells, errors)) && (|errors| > 0 ==> Settled(cells))
    ensures Iterate(g, clip, v, fuel, flicker, totalArea, threshold, maxIterationCount, cells, errors).Ok? ==>
              forall t :: Tracks(cells, t) ==> Tracks(Iterate(g, clip, v, fuel, flicker, totalArea, threshold, maxIterationCount, cells, errors).value.cells, t)
    ensures Complete(g) && Iterate(g, clip, v, fuel, flicker, totalArea, threshold, maxIterationCount, cells, errors).Err? ==>
              Iterate(g, clip, v, fuel, flicker, totalArea, threshold, maxIterationCount, cells, errors).error == CorrectionDiverges
    ensures Complete(g) && Untroubled(v, fuel, |cells|) ==>
              Iterate(g, clip, v, fuel, flicker, totalArea, threshold, maxIterationCount, cells, errors).Ok?
    // a loop that fails is a pass within the budget that fails, with the same error
    ensures Iterate(g, clip, v, fuel, flicker, totalArea, threshold, maxIterationCount, cells, errors).Err? ==>
              exists k :: 0 < k <= maxIterationCount - |errors|
                          && Replay(g, clip, v, fuel, flicker, totalArea, cells, errors, k)
                             == Err(Iterate(g, clip, v, fuel, flicker, totalArea, threshold, maxIterationCount, cells, errors).error)
    decreases maxIterationCount - |errors|
  {
    if !(Converged(errors, threshold) || |errors| == maxIterationCount) {
      var step := Step(g, clip, v, fuel, flicker(totalArea, errors), Run(cells, errors));
      StepOutcome(g, clip, v, fuel, flicker(totalArea, errors), Run(cells, errors));
      if step.Ok? {
        var next := step.value;
        StillAboveThreshold(errors, next.areaErrors, threshold);
        IterateOutcome(g, clip, v, fuel, flicker, totalArea, threshold, maxIterationCount, next.cells, next.areaErrors);
        var r := Iterate(g, clip, v, fuel, flicker, totalArea, threshold, maxIterationCount, cells, errors);
        assert r == Iterate(g, clip, v, fuel, flicker, totalArea, threshold, maxIterationCount, next.cells, next.areaErrors);
        if r.Err? {
          var k :| 0 < k <= maxIterationCount - |next.areaErrors|
                   && Replay(g, clip, v, fuel, flicker, totalArea, next.cells, next.areaErrors, k) == Err(r.error);
          assert Replay(g, clip, v, fuel, flicker, totalArea, cells, errors, k + 1) == Err(r.error);
        }
      } else {
        assert Replay(g, clip, v, fuel, flicker, totalArea, cells, errors, 1) == Err(step.error);
      }
    }
  }

  /** A replay of `n` passes is the first pass followed by a replay of
      the remaining `m`. */
  lemma ReplayFirstPass(g: Oracle, clip: seq<Point>, v: Variant, fuel: nat,
                        flicker: (real, seq<real>) -> Ratio, totalArea: real,
                        cells: seq<Cell>, errors: seq<real>, next: Run, n: nat, m: nat)
    requires Step(g, clip, v, fuel, flicker(totalArea, errors), Run(cells, errors)) == Ok(next)
    requires n == m + 1
    ensures Replay(g, clip, v, fuel, flicker, totalArea, cells, errors, n)
            == Replay(g, clip, v, fuel, flicker, totalArea, next.cells, next.areaErrors, m)
  {
  }

  /** A loop that finishes is its passes replayed, one per error it
      recorded: no pass is skipped and no error is made up. */
  lemma IterateReplays(g: Oracle, clip: seq<Point>, v: Variant, fuel: nat,
                       flicker: (real, seq<real>) -> Ratio, totalArea: real, threshold: real,
                       maxIterationCount: nat, cells: seq<Cell>, errors: seq<real>, run: Run)
    requires |errors| <= maxIterationCount
    requires forall k :: 0 <= k < |errors| - 1 ==> errors[k] >= threshold
    requires Measured(g, Run(cells, errors)) && (|errors| > 0 ==> Settled(cells))
    requires Iterate(g, clip, v, fuel, flicker, totalArea, threshold, maxIterationCount, cells, errors) == Ok(run)
    ensures |errors| <= |run.areaErrors|
    ensures Replay(g, clip, v, fuel, flicker, totalArea, cells, errors, |run.areaErrors| - |errors|) == Ok(run)
    ensures errors == [] ==> Replay(g, clip, v, fuel, flicker, totalArea, cells, errors, |run.areaErrors|) == Ok(run)
  {
    ReplaysToEnd(g, clip, v, fuel, flicker, totalArea, threshold, maxIterationCount, cells, errors, run);
    var k: nat :| Replay(g, clip, v, fuel, flicker, totalArea, cells, errors, k) == Ok(run);
    ReplayCount(g, clip, v, fuel, flicker, totalArea, cells, errors, run, k);
  }

  /** Some number of passes from `cells` and `errors` reaches the run the
      loop returns. */
  lemma {:induction false} ReplaysToEnd(g: Oracle, clip: seq<Point>, v: Variant, fuel: nat,
                                        flicker: (real, seq<real>) -> Ratio, totalArea: real, threshold: real,
                                        maxIterationCount: nat, cells: seq<Cell>, errors: seq<real>, run: Run)
    requires |errors| <= maxIterationCount
    requires forall k :: 0 <= k < |errors| - 1 ==> errors[k] >= threshold
    requires Measured(g, Run(cells, errors)) && (|errors| > 0 ==> Settled(cells))
    requires Iterate(g, clip, v, fuel, flicker, totalArea, threshold, maxIterationCount, cells, errors) == Ok(run)
    ensures exists k: nat :: Replay(g, clip, v, fuel, flicker, totalArea, cells, errors, k) == Ok(run)
    decreases maxIterationCount - |errors|
  {
    if Converged(errors, threshold) || |errors| == maxIterationCount {
      IterateStops(g, clip, v, fuel, flicker, totalArea, threshold, maxIterationCount, cells, errors);
      assert Replay(g, clip, v, fuel, flicker, totalArea, cells, errors, 0) == Ok(run);
    } else {
      var next := IterateGoesOn(g, clip, v, fuel, flicker, totalArea, threshold, maxIterationCount, cells, errors, run);
      ReplaysToEnd(g, clip, v, fuel, flicker, totalArea, threshold, maxIterationCount, next.cells, next.areaErrors, run);
      var m: nat :| Replay(g, clip, v, fuel, flicker, totalArea, next.cells, next.areaErrors, m) == Ok(run);
      ReplayFirstPass(g, clip, v, fuel, flicker, totalArea, cells, errors, next, m + 1, m);
    }
  }

  /** The passes that reach a run are as many as the errors they add. */
  lemma ReplayCount(g: Oracle, clip: seq<Point>, v: Variant, fuel: nat,
                    flicker: (real, seq<real>) -> Ratio, totalArea: real,
                    cells: seq<Cell>, errors: seq<real>, run: Run, k: nat)
    requires Replay(g, clip, v, fuel, flicker, totalArea, cells, errors, k) == Ok(run)
    ensures |errors| <= |run.areaErrors| && k == |run.areaErrors| - |errors|
    ensures Replay(g, clip, v, fuel, flicker, totalArea, cells, errors, |run.areaErrors| - |errors|) == Ok(run)
    ensures errors == [] ==> Replay(g, clip, v, fuel, flicker, totalArea, cells, errors, |run.areaErrors|) == Ok(run)
  {
  }



  /** A loop that has converged or spent its budget returns what it was given. */
  lemma IterateStops(g: Oracle, clip: seq<Point>, v: Variant, fuel: nat,
                     flicker: (real, seq<real>) -> Ratio, totalArea: real, threshold: real,
                     maxIterationCount: nat, cells: seq<Cell>, errors: seq<real>)
    requires |errors| <= maxIterationCount
    requires forall k :: 0 <= k < |errors| - 1 ==> errors[k] >= threshold
    requires Measured(g, Run(cells, errors)) && (|errors| > 0 ==> Settled(cells))
    requires Converged(errors, threshold) || |errors| == maxIterationCount
    ensures Iterate(g, clip, v, fuel, flicker, totalArea, threshold, maxIterationCount, cells, errors)
            == Ok(Run(cells, errors))
  {
  }

  /** A finishing loop that has neither converged nor spent its budget
      makes a first pass, and the loop from there finishes the same way. */
  lemma IterateGoesOn(g: Oracle, clip: seq<Point>, v: Variant, fuel: nat,
                      flicker: (real, seq<real>) -> Ratio, totalArea: real, threshold: real,
                      maxIterationCount: nat, cells: seq<Cell>, errors: seq<real>, run: Run)
    returns (next: Run)
    requires |errors| <= maxIterationCount
    requires forall k :: 0 <= k < |errors| - 1 ==> errors[k] >= threshold
    requires Measured(g, Run(cells, errors)) && (|errors| > 0 ==> Settled(cells))
    requires !(Converged(errors, threshold) || |errors| == maxIterationCount)
    requires Iterate(g, clip, v, fuel, flicker, totalArea, threshold, maxIterationCount, cells, errors) == Ok(run)
    ensures Step(g, clip, v, fuel, flicker(totalArea, errors), Run(cells, errors)) == Ok(next)
    ensures |next.areaErrors| == |errors| + 1 <= maxIterationCount
    ensures forall k :: 0 <= k < |next.areaErrors| - 1 ==> next.areaErrors[k] >= threshold
    ensures Measured(g, next) && Settled(next.cells)
    ensures Iterate(g, clip, v, fuel, flicker, totalArea, threshold, maxIterationCount, next.cells, next.areaErrors)
            == Ok(run)
  {
    next := Step(g, clip, v, fuel, flicker(totalArea, errors), Run(cells, errors)).value;
    StillAboveThreshold(errors, next.areaErrors, threshold);
  }

  /** What a run returns. `convergenceRatio` is `None` where the source
      yields `NaN` or an infinity: no iteration ran (the error is still
      `undefined`), or the total area is zero. */
  datatype FitResult = FitResult(polygons: seq<Cell>, iterationCount: nat, convergenceRatio: Option<real>)

  /** A quotient below the threshold ratio means an error below the
      threshold, and conversely. */
  lemma RatioBelowThreshold(e: real, ratio: real, totalArea: real)
    requires totalArea > 0.0
    ensures e / totalArea < ratio <==> e < ratio * totalArea
    ensures (e / totalArea) * totalArea == e
  {
    var q := e / totalArea;
    assert q * totalArea == e;
    if q < ratio {
      assert (ratio - q) * totalArea > 0.0;
    }
    if e < ratio * totalArea {
      assert (ratio - q) * totalArea > 0.0;
    }
  }

  /** The returned object of a run that iterated at least once:
      `areaError / totalArea` is the last error relative to the total area. */
  function Report(g: Oracle, run: Run, totalArea: real, convergenceRatio: real, maxIterationCount: nat)
    : (r: FitResult)
    requires |run.areaErrors| > 0 && Measured(g, run) && totalArea >= 0.0
    requires Converged(run.areaErrors, Threshold(convergenceRatio, totalArea))
             || |run.areaErrors| == maxIterationCount
    ensures r.polygons == run.cells && r.iterationCount == |run.areaErrors|
    ensures r.convergenceRatio.Some? <==> totalArea > 0.0
    ensures r.convergenceRatio.Some? ==>
              r.convergenceRatio.value * totalArea == AreaError(g, r.polygons) && r.convergenceRatio.value >= 0.0
    ensures r.convergenceRatio.Some? ==> r.convergenceRatio.value == AreaError(g, r.polygons) / totalArea
    ensures r.convergenceRatio.Some? && r.iterationCount != maxIterationCount ==>
              r.convergenceRatio.value < convergenceRatio
  {
    var count := |run.areaErrors|;
    var areaError := run.areaErrors[count - 1];
    if totalArea == 0.0 then FitResult(run.cells, count, None)
    else
      RatioBelowThreshold(areaError, convergenceRatio, totalArea);
      assert areaError / totalArea >= 0.0 by {
        RatioBelowThreshold(areaError, 0.0, totalArea);
      }
      FitResult(run.cells, count, Some(areaError / totalArea))
  }

  /** `_voronoiMap(data)`. `seeds` are the starting positions the source
      samples at random inside the clipping polygon; `fuel` bounds each
      overweight correction. */
  function Fit<T>(cfg: Config<T>, g: Oracle, flicker: (real, seq<real>) -> Ratio, fuel: nat,
                  data: seq<T>, seeds: seq<Point>): (r: Result<FitResult>)
    requires |seeds| == |data|
    requires forall k :: 0 <= k < |seeds| ==> g.contains(cfg.clip, seeds[k])
    requires |data| == 0 || Sum(ExtractWeights(RawWeights(cfg.weight, data), cfg.minWeightRatio)) != 0.0
    ensures r.Ok? ==> |r.value.polygons| == |data|
    // every item has exactly one polygon, targeting the item's share of the area
    ensures r.Ok? ==> Tracks(r.value.polygons,
                             TargetAreas(ExtractWeights(RawWeights(cfg.weight, data), cfg.minWeightRatio),
                                         TotalArea(g, cfg.clip)))
    ensures r.Ok? ==> r.value.iterationCount == 0 || r.value.iterationCount <= cfg.maxIterationCount
    ensures r.Ok? && cfg.maxIterationCount >= 1 ==> r.value.iterationCount >= 1
    ensures r.Ok? && r.value.iterationCount > 0 ==> Settled(r.value.polygons)
    // the reported ratio is the final area error relative to the total area
    ensures r.Ok? ==> (r.value.convergenceRatio.Some? <==>
                         r.value.iterationCount > 0 && TotalArea(g, cfg.clip) > 0.0)
    ensures r.Ok? && r.value.convergenceRatio.Some? ==>
              r.value.convergenceRatio.value == AreaError(g, r.value.polygons) / TotalArea(g, cfg.clip)
              && r.value.convergenceRatio.value >= 0.0
    // stopping before the budget is spent means the ratio was reached
    ensures r.Ok? && r.value.convergenceRatio.Some? && r.value.iterationCount < cfg.maxIterationCount ==>
              r.value.convergenceRatio.value < cfg.convergenceRatio
    ensures r.Ok? && r.value.convergenceRatio.Some? && r.value.convergenceRatio.value >= cfg.convergenceRatio ==>
              r.value.iterationCount == cfg.maxIterationCount
    ensures cfg.maxIterationCount >= 1 && SelectVariant(cfg.overweightedVariant).None? ==> r.Err?
    ensures r.Err? && r.error == UnknownVariant ==> SelectVariant(cfg.overweightedVariant).None?
    // with a construction that never loses a cell, a known heuristic and corrections that
    // settle, the run succeeds; only a correction or the heuristic switch can end it early
    ensures Complete(g) && r.Err? ==> r.error == CorrectionDiverges || r.error == UnknownVariant
    ensures Complete(g) && cfg.maxIterationCount <= 0 ==> r.Ok?
    ensures (Complete(g) && SelectVariant(cfg.overweightedVariant).Some?
             && Untroubled(SelectVariant(cfg.overweightedVariant).value, fuel, |data|)) ==> r.Ok?
  {
    var totalArea := TotalArea(g, cfg.clip);
    var raw := RawWeights(cfg.weight, data);
    var cells :- Initialize(g, cfg.clip, raw, cfg.minWeightRatio, totalArea, seeds);
    FromFirstDiagram(cfg, g, flicker, fuel, totalArea, cells)
  }

  /** The rest of `_voronoiMap` once the first diagram is built: with no
      budget the first diagram is returned as is; otherwise the selected
      heuristic runs the loop. */
  function FromFirstDiagram<T>(cfg: Config<T>, g: Oracle, flicker: (real, seq<real>) -> Ratio, fuel: nat,
                               totalArea: real, cells: seq<Cell>): (r: Result<FitResult>)
    requires totalArea >= 0.0
    ensures r.Ok? ==> |r.value.polygons| == |cells|
    ensures r.Ok? ==> forall t :: Tracks(cells, t) ==> Tracks(r.value.polygons, t)
    ensures r.Ok? ==> r.value.iterationCount == 0 || r.value.iterationCount <= cfg.maxIterationCount
    ensures r.Ok? && cfg.maxIterationCount >= 1 ==> r.value.iterationCount >= 1
    ensures r.Ok? && r.value.iterationCount > 0 ==> Settled(r.value.polygons)
    ensures r.Ok? ==> (r.value.convergenceRatio.Some? <==> r.value.iterationCount > 0 && totalArea > 0.0)
    ensures r.Ok? && r.value.convergenceRatio.Some? ==>
              r.value.convergenceRatio.value == AreaError(g, r.value.polygons) / totalArea
              && r.value.convergenceRatio.value >= 0.0
    ensures r.Ok? && r.value.convergenceRatio.Some? && r.value.iterationCount < cfg.maxIterationCount ==>
              r.value.convergenceRatio.value < cfg.convergenceRatio
    ensures r.Ok? && r.value.convergenceRatio.Some? && r.value.convergenceRatio.value >= cfg.convergenceRatio ==>
              r.value.iterationCount == cfg.maxIterationCount
    ensures cfg.maxIterationCount >= 1 && SelectVariant(cfg.overweightedVariant).None? ==> r.Err?
    ensures r.Err? ==> r.error == DegenerateDiagram || r.error == CorrectionDiverges || r.error == UnknownVariant
    ensures r.Err? && r.error == UnknownVariant ==> SelectVariant(cfg.overweightedVariant).None?
    ensures Complete(g) && r.Err? ==> r.error == CorrectionDiverges || r.error == UnknownVariant
    ensures cfg.maxIterationCount <= 0 ==> r.Ok?
    ensures (Complete(g) && SelectVariant(cfg.overweightedVariant).Some?
             && Untroubled(SelectVariant(cfg.overweightedVariant).value, fuel, |cells|)) ==> r.Ok?
  {
    if cfg.maxIterationCount <= 0 then Ok(FitResult(cells, 0, None))
    else
      var v :- SelectVariant(cfg.overweightedVariant).ToResult(UnknownVariant);
      Iterations(g, cfg.clip, v, fuel, flicker, totalArea, cfg.convergenceRatio, cfg.maxIterationCount as nat, cells)
  }

  /** The loop of a run with a budget of at least one iteration, from the
      first diagram to the returned object. */
  function Iterations(g: Oracle, clip: seq<Point>, v: Variant, fuel: nat, flicker: (real, seq<real>) -> Ratio,
                      totalArea: real, convergenceRatio: real, maxIterationCount: nat, cells: seq<Cell>)
    : (r: Result<FitResult>)
    requires maxIterationCount >= 1 && totalArea >= 0.0
    ensures r.Ok? ==> |r.value.polygons| == |cells| && Settled(r.value.polygons)
    ensures r.Ok? ==> forall t :: Tracks(cells, t) ==> Tracks(r.value.polygons, t)
    ensures r.Ok? ==> 1 <= r.value.iterationCount <= maxIterationCount
    ensures r.Ok? ==> (r.value.convergenceRatio.Some? <==> totalArea > 0.0)
    ensures r.Ok? && r.value.convergenceRatio.Some? ==>
              r.value.convergenceRatio.value == AreaError(g, r.value.polygons) / totalArea
              && r.value.convergenceRatio.value >= 0.0
    ensures r.Ok? && r.value.convergenceRatio.Some? && r.value.iterationCount < maxIterationCount ==>
              r.value.convergenceRatio.value < convergenceRatio
    ensures r.Err? ==> r.error == DegenerateDiagram || r.error == CorrectionDiverges
    ensures Complete(g) && r.Err? ==> r.error == CorrectionDiverges
    ensures Complete(g) && Untroubled(v, fuel, |cells|) ==> r.Ok?
    // a run that fails is a pass within the budget that fails, with the same error
    ensures r.Err? ==> exists k :: 0 < k <= maxIterationCount
                                   && Replay(g, clip, v, fuel, flicker, totalArea, cells, [], k) == Err(r.error)
    // a run that finishes reports as many iterations as passes were made
    ensures r.Ok? ==> && Replay(g, clip, v, fuel, flicker, totalArea, cells, [], r.value.iterationCount).Ok?
                      && Replay(g, clip, v, fuel, flicker, totalArea, cells, [], r.value.iterationCount).value.cells
                         == r.value.polygons
  {
    IterateOutcome(g, clip, v, fuel, flicker, totalArea, Threshold(convergenceRatio, totalArea),
                   maxIterationCount, cells, []);
    var run :- Iterate(g, clip, v, fuel, flicker, totalArea, Threshold(convergenceRatio, totalArea),
                       maxIterationCount, cells, []);
    IterateReplays(g, clip, v, fuel, flicker, totalArea, Threshold(convergenceRatio, totalArea),
                   maxIterationCount, cells, [], run);
    Ok(Report(g, run, totalArea, convergenceRatio, maxIterationCount))
  }

  /** What each failure of a run means: the first diagram is short of
      cells, the heuristic switch names no heuristic, or a pass within the
      budget fails with that error. */
  lemma FitFailures<T>(cfg: Config<T>, g: Oracle, flicker: (real, seq<real>) -> Ratio, fuel: nat,
                       data: seq<T>, seeds: seq<Point>)
    requires |seeds| == |data|
    requires forall k :: 0 <= k < |seeds| ==> g.contains(cfg.clip, seeds[k])
    requires |data| == 0 || Sum(ExtractWeights(RawWeights(cfg.weight, data), cfg.minWeightRatio)) != 0.0
    ensures var r := Fit(cfg, g, flicker, fuel, data, seeds);
            var first := Initialize(g, cfg.clip, RawWeights(cfg.weight, data), cfg.minWeightRatio,
                                    TotalArea(g, cfg.clip), seeds);
            r.Err? ==>
              || first == Err(r.error)
              || (r.error == UnknownVariant && SelectVariant(cfg.overweightedVariant).None?)
              || (&& first.Ok? && SelectVariant(cfg.overweightedVariant).Some?
                  && exists k :: 0 < k <= cfg.maxIterationCount
                                 && Replay(g, cfg.clip, SelectVariant(cfg.overweightedVariant).value, fuel, flicker,
                                           TotalArea(g, cfg.clip), first.value, [], k) == Err(r.error))
  {
    var first := Initialize(g, cfg.clip, RawWeights(cfg.weight, data), cfg.minWeightRatio,
                            TotalArea(g, cfg.clip), seeds);
    if first.Ok? && cfg.maxIterationCount > 0 && SelectVariant(cfg.overweightedVariant).Some? {
      var v := SelectVariant(cfg.overweightedVariant).value;
      var r := Iterations(g, cfg.clip, v, fuel, flicker, TotalArea(g, cfg.clip), cfg.convergenceRatio,
                          cfg.maxIterationCount as nat, first.value);
      assert Fit(cfg, g, flicker, fuel, data, seeds) == r;
      if r.Err? {
        var k :| 0 < k <= cfg.maxIterationCount as nat
                 && Replay(g, cfg.clip, v, fuel, flicker, TotalArea(g, cfg.clip), first.value, [], k) == Err(r.error);
        assert exists k :: 0 < k <= cfg.maxIterationCount
                           && Replay(g, cfg.clip, SelectVariant(cfg.overweightedVariant).value, fuel, flicker,
                                     TotalArea(g, cfg.clip), first.value, [], k)
                              == Err(Fit(cfg, g, flicker, fuel, data, seeds).error);
      }
    }
  }

  /** What a finished run reports: with no budget, the first diagram; with
      one, the cells of exactly `iterationCount` passes from the first
      diagram under the selected heuristic. */
  lemma FitOutcome<T>(cfg: Config<T>, g: Oracle, flicker: (real, seq<real>) -> Ratio, fuel: nat,
                      data: seq<T>, seeds: seq<Point>)
    requires |seeds| == |data|
    requires forall k :: 0 <= k < |seeds| ==> g.contains(cfg.clip, seeds[k])
    requires |data| == 0 || Sum(ExtractWeights(RawWeights(cfg.weight, data), cfg.minWeightRatio)) != 0.0
    ensures var r := Fit(cfg, g, flicker, fuel, data, seeds);
            var first := Initialize(g, cfg.clip, RawWeights(cfg.weight, data), cfg.minWeightRatio,
                                    TotalArea(g, cfg.clip), seeds);
            r.Ok? ==> first.Ok? && (r.value.iterationCount == 0 <==> cfg.maxIterationCount <= 0)
    ensures var r := Fit(cfg, g, flicker, fuel, data, seeds);
            var first := Initialize(g, cfg.clip, RawWeights(cfg.weight, data), cfg.minWeightRatio,
                                    TotalArea(g, cfg.clip), seeds);
            r.Ok? && r.value.iterationCount == 0 ==> first.Ok? && r.value.polygons == first.value
    ensures var r := Fit(cfg, g, flicker, fuel, data, seeds);
            var first := Initialize(g, cfg.clip, RawWeights(cfg.weight, data), cfg.minWeightRatio,
                                    TotalArea(g, cfg.clip), seeds);
            r.Ok? && r.value.iterationCount > 0 ==>
              && first.Ok? && SelectVariant(cfg.overweightedVariant).Some?
              && Replay(g, cfg.clip, SelectVariant(cfg.overweightedVariant).value, fuel, flicker,
                        TotalArea(g, cfg.clip), first.value, [], r.value.iterationCount).Ok?
              && Replay(g, cfg.clip, SelectVariant(cfg.overweightedVariant).value, fuel, flicker,
                        TotalArea(g, cfg.clip), first.value, [], r.value.iterationCount).value.cells
                 == r.value.polygons
  {
    var first := Initialize(g, cfg.clip, RawWeights(cfg.weight, data), cfg.minWeightRatio,
                            TotalArea(g, cfg.clip), seeds);
    if first.Ok? && cfg.maxIterationCount > 0 && SelectVariant(cfg.overweightedVariant).Some? {
      var v := SelectVariant(cfg.overweightedVariant).value;
      var r := Iterations(g, cfg.clip, v, fuel, flicker, TotalArea(g, cfg.clip), cfg.convergenceRatio,
                          cfg.maxIterationCount as nat, first.value);
      assert Fit(cfg, g, flicker, fuel, data, seeds) == r;
    }
  }
}

=== FILE: initialization.dfy ===
/** Initialization of a run: the data weights are floored, each site gets a
    targeted area proportional to its floored weight, and every site starts
    with the same power-weight at a seed position inside the clip. */
module Initialization {
  import opened Sites
  import opened GeometryOracle

  /** Largest data weight (`reduce` with `Math.max`, left to right). */
  function MaxWeight(raw: seq<real>): (m: real)
    requires |raw| > 0
    ensures m in raw
    ensures forall k :: 0 <= k < |raw| ==> raw[k] <= m
  {
    if |raw| == 1 then raw[0] else Max(MaxWeight(raw[..|raw| - 1]), raw[|raw| - 1])
  }

  /** `minAllowedWeight = maxWeight * minWeightRatio`. */
  function MinAllowedWeight(raw: seq<real>, minWeightRatio: real): (m: real)
    requires |raw| > 0
    // a non-negative ratio gives a non-negative floor, and one up to 1 spares the heaviest item
    ensures MaxWeight(raw) >= 0.0 && minWeightRatio >= 0.0 ==> m >= 0.0
    ensures MaxWeight(raw) >= 0.0 && minWeightRatio <= 1.0 ==> m <= MaxWeight(raw)
  {
    Floor(MaxWeight(raw), minWeightRatio)
  }

  /** `top * ratio`, the floor below the largest weight `top`. */
  function Floor(top: real, ratio: real): (m: real)
    ensures top >= 0.0 && ratio >= 0.0 ==> m >= 0.0
    ensures top >= 0.0 && ratio <= 1.0 ==> m <= top
  {
    FloorBounds(top, ratio);
    top * ratio
  }

  lemma FloorBounds(top: real, ratio: real)
    ensures top >= 0.0 && ratio >= 0.0 ==> top * ratio >= 0.0
    ensures top >= 0.0 && ratio <= 1.0 ==> top * ratio <= top
  {
    if top >= 0.0 && ratio >= 0.0 {
      MulNonNegative(top, ratio);
    }
    if top >= 0.0 && ratio <= 1.0 {
      MulNonNegative(top, 1.0 - ratio);
    }
  }

  /** The weights used for targeting: each data weight, raised to the
      minimum allowed weight when below it. */
  function ExtractWeights(raw: seq<real>, minWeightRatio: real): (w: seq<real>)
    ensures |w| == |raw|
    ensures forall k :: 0 <= k < |raw| ==> w[k] >= raw[k] && w[k] >= MinAllowedWeight(raw, minWeightRatio)
    ensures forall k :: 0 <= k < |raw| && raw[k] >= MinAllowedWeight(raw, minWeightRatio) ==> w[k] == raw[k]
    ensures forall k :: 0 <= k < |raw| && raw[k] < MinAllowedWeight(raw, minWeightRatio) ==>
              w[k] == MinAllowedWeight(raw, minWeightRatio)
  {
    if |raw| == 0 then []
    else
      var floor := MinAllowedWeight(raw, minWeightRatio);
      seq(|raw|, k requires 0 <= k < |raw| => Max(raw[k], floor))
  }

  /** With a positive largest weight and a non-negative ratio, every
      extracted weight is non-negative and their total is positive, so the
      targeted areas are well defined. */
  lemma TotalWeightPositive(raw: seq<real>, minWeightRatio: real)
    requires |raw| > 0 && MaxWeight(raw) > 0.0 && minWeightRatio >= 0.0
    ensures forall k :: 0 <= k < |raw| ==> ExtractWeights(raw, minWeightRatio)[k] >= 0.0
    ensures Sum(ExtractWeights(raw, minWeightRatio)) > 0.0
  {
    ExtractedNonNegative(raw, minWeightRatio);
    var w := ExtractWeights(raw, minWeightRatio);
    var k :| 0 <= k < |raw| && raw[k] == MaxWeight(raw);
    assert w[k] >= raw[k];
    SumBoundsTerms(w, k);
  }

  /** With a non-negative largest weight and ratio, the floor and every
      extracted weight are non-negative. */
  lemma ExtractedNonNegative(raw: seq<real>, minWeightRatio: real)
    requires |raw| > 0 && MaxWeight(raw) >= 0.0 && minWeightRatio >= 0.0
    ensures forall k :: 0 <= k < |raw| ==> ExtractWeights(raw, minWeightRatio)[k] >= 0.0
  {
    assert MinAllowedWeight(raw, minWeightRatio) >= 0.0;
  }

  lemma MulNonNegative(a: real, b: real)
    requires a >= 0.0 && b >= 0.0
    ensures a * b >= 0.0
  {
  }

  /** An item of weight 0 next to one of weight 100, with the default ratio,
      is floored to 1 and keeps a share of the area. */
  lemma ZeroWeightIsFloored()
    ensures ExtractWeights([0.0, 100.0], 0.01) == [1.0, 100.0]
  {
    assert MaxWeight([0.0, 100.0]) == 100.0 by {
      assert [0.0, 100.0][..1] == [0.0];
    }
  }

  /** `avgArea / 2`, the starting power-weight of every site. */
  function DefaultWeight(totalArea: real, siteCount: nat): (w: real)
    requires siteCount > 0
    ensures 2.0 * (siteCount as real) * w == totalArea
  {
    (totalArea / siteCount as real) / 2.0
  }

  /** `totalArea * weight / totalWeight`. */
  function TargetedArea(totalArea: real, weight: real, totalWeight: real): (t: real)
    requires totalWeight != 0.0
    ensures t * totalWeight == totalArea * weight
    ensures t == (totalArea / totalWeight) * weight
  {
    totalArea * weight / totalWeight
  }

  /** Sites whose targets are `c * weights[k]` have targets summing to `c * Sum(weights)`. */
  lemma ScaledTargetsSum(r: seq<Site>, weights: seq<real>, c: real)
    requires |r| == |weights|
    requires forall k :: 0 <= k < |r| ==> r[k].targetedArea == c * weights[k]
    ensures Sum(Targets(r)) == c * Sum(weights)
  {
    assert Targets(r) == Scale(weights, c);
    SumScale(weights, c);
  }

  /** A non-negative factor keeps the order of what it scales, a positive one keeps positivity. */
  lemma ScaledOrder(c: real, a: real, b: real)
    requires c >= 0.0
    ensures a <= b ==> c * a <= c * b
    ensures c > 0.0 && a > 0.0 ==> c * a > 0.0
  {
    if a <= b {
      MulNonNegative(c, b - a);
    }
  }

  /** Targets `c * weights[k]` with `c >= 0` are ordered like the weights,
      and with `c > 0` a positive weight gets a positive area. */
  lemma ScaledTargetsOrder(r: seq<Site>, weights: seq<real>, c: real)
    requires |r| == |weights| && c >= 0.0
    requires forall k :: 0 <= k < |r| ==> r[k].targetedArea == c * weights[k]
    ensures forall k :: 0 <= k < |r| && c > 0.0 && weights[k] > 0.0 ==> r[k].targetedArea > 0.0
    ensures forall j, k :: 0 <= j < |r| && 0 <= k < |r| && weights[j] <= weights[k] ==>
              r[j].targetedArea <= r[k].targetedArea
  {
    forall k | 0 <= k < |r| && c > 0.0 && weights[k] > 0.0
      ensures r[k].targetedArea > 0.0
    {
      ScaledOrder(c, weights[k], weights[k]);
    }
    forall j, k | 0 <= j < |r| && 0 <= k < |r| && weights[j] <= weights[k]
      ensures r[j].targetedArea <= r[k].targetedArea
    {
      ScaledOrder(c, weights[j], weights[k]);
    }
  }

  /** A quotient by a positive number has the sign of the dividend. */
  lemma QuotientSign(a: real, b: real)
    requires b > 0.0
    ensures a >= 0.0 ==> a / b >= 0.0
    ensures a > 0.0 ==> a / b > 0.0
  {
    var q := a / b;
    assert q * b == a;
    if q < 0.0 {
      assert (-q) * b > 0.0;
    }
    if q == 0.0 {
      assert q * b == 0.0;
    }
  }

  /** Targets `totalArea * weights[k] / Sum(weights)` add up to the total area. */
  lemma ProportionalTargetsSum(r: seq<Site>, weights: seq<real>, totalArea: real)
    requires |r| == |weights| && Sum(weights) != 0.0
    requires forall k :: 0 <= k < |r| ==> r[k].targetedArea == TargetedArea(totalArea, weights[k], Sum(weights))
    ensures Sum(Targets(r)) == totalArea
  {
    var total := Sum(weights);
    var c := totalArea / total;
    TargetsShareFactor(r, weights, totalArea, total);
    ScaledTargetsSum(r, weights, c);
    assert Sum(Targets(r)) == c * total;
    QuotientTimesDivisor(totalArea, total);
  }

  /** With a positive total weight and a non-negative total area, the
      targets are ordered like the weights, and positive for positive
      weights when the area is positive. */
  lemma ProportionalTargetsOrder(r: seq<Site>, weights: seq<real>, totalArea: real)
    requires |r| == |weights| && Sum(weights) != 0.0
    requires forall k :: 0 <= k < |r| ==> r[k].targetedArea == TargetedArea(totalArea, weights[k], Sum(weights))
    ensures forall k :: 0 <= k < |r| && totalArea > 0.0 && Sum(weights) > 0.0 && weights[k] > 0.0 ==>
              r[k].targetedArea > 0.0
    ensures forall j, k :: (0 <= j < |r| && 0 <= k < |r| && totalArea >= 0.0 && Sum(weights) > 0.0
                            && weights[j] <= weights[k]) ==> r[j].targetedArea <= r[k].targetedArea
  {
    var total := Sum(weights);
    if total > 0.0 && totalArea >= 0.0 {
      TargetsShareFactor(r, weights, totalArea, total);
      QuotientSign(totalArea, total);
      ScaledTargetsOrder(r, weights, totalArea / total);
    }
  }

  lemma TargetsShareFactor(r: seq<Site>, weights: seq<real>, totalArea: real, total: real)
    requires |r| == |weights| && total != 0.0
    requires forall k :: 0 <= k < |r| ==> r[k].targetedArea == TargetedArea(totalArea, weights[k], total)
    ensures forall k :: 0 <= k < |r| ==> r[k].targetedArea == (totalArea / total) * weights[k]
  {
    forall k | 0 <= k < |r|
      ensures r[k].targetedArea == (totalArea / total) * weights[k]
    {
      assert r[k].targetedArea == TargetedArea(totalArea, weights[k], total);
    }
  }

  lemma QuotientTimesDivisor(a: real, b: real)
    requires b != 0.0
    ensures (a / b) * b == a
  {
  }

  /** The targeted area of each item, in item order. */
  function TargetAreas(weights: seq<real>, totalArea: real): (t: seq<real>)
    requires |weights| == 0 || Sum(weights) != 0.0
    ensures |t| == |weights|
    ensures forall k :: 0 <= k < |weights| ==> t[k] == TargetedArea(totalArea, weights[k], Sum(weights))
  {
    seq(|weights|, k requires 0 <= k < |weights| => TargetedArea(totalArea, weights[k], Sum(weights)))
  }

  /** `createTreemapPoints`, with the randomly sampled seed positions given. */
  function CreateTreemapPoints(weights: seq<real>, totalArea: real, seeds: seq<Point>): (r: seq<Site>)
    requires |seeds| == |weights|
    requires |weights| == 0 || Sum(weights) != 0.0
    ensures |r| == |weights|
    ensures forall k :: 0 <= k < |r| ==> r[k].index == k && r[k].pos == seeds[k]
    // the same starting power-weight for all, whatever their data weight
    ensures forall k :: 0 <= k < |r| ==> r[k].weight == DefaultWeight(totalArea, |r|)
    // areas are shared in proportion to the weights, and add up to the total
    ensures forall k :: 0 <= k < |r| ==> r[k].targetedArea == TargetedArea(totalArea, weights[k], Sum(weights))
    ensures Targets(r) == TargetAreas(weights, totalArea)
    ensures |r| > 0 ==> Sum(Targets(r)) == totalArea
    ensures forall k :: 0 <= k < |r| && totalArea > 0.0 && Sum(weights) > 0.0 && weights[k] > 0.0 ==>
              r[k].targetedArea > 0.0
    ensures forall j, k :: (0 <= j < |r| && 0 <= k < |r| && totalArea >= 0.0 && Sum(weights) > 0.0
                            && weights[j] <= weights[k]) ==> r[j].targetedArea <= r[k].targetedArea
  {
    if |weights| == 0 then []
    else
      var n := |weights|;
      var r := seq(n, k requires 0 <= k < n =>
        Site(k, TargetedArea(totalArea, weights[k], Sum(weights)), seeds[k], DefaultWeight(totalArea, n)));
      ProportionalTargetsSum(r, weights, totalArea);
      ProportionalTargetsOrder(r, weights, totalArea);
      assert Targets(r) == TargetAreas(weights, totalArea);
      r
  }

  /** `initialize`: floor the weights, create the sites, compute the first
      diagram. `seeds` are the positions sampled inside the clip. */
  function Initialize(g: Oracle, clip: seq<Point>, raw: seq<real>, minWeightRatio: real,
                      totalArea: real, seeds: seq<Point>): (r: Result<seq<Cell>>)
    requires |seeds| == |raw|
    requires forall k :: 0 <= k < |seeds| ==> g.contains(clip, seeds[k])
    requires |raw| == 0 || Sum(ExtractWeights(raw, minWeightRatio)) != 0.0
    ensures r.Ok? ==> |r.value| == |raw| && PositiveCells(g, r.value)
    // each item has exactly one cell, targeting the item's share of the area, at the item's seed
    ensures r.Ok? ==> Tracks(r.value, TargetAreas(ExtractWeights(raw, minWeightRatio), totalArea))
    ensures r.Ok? ==> forall k :: 0 <= k < |r.value| ==>
              r.value[k].site.index < |seeds| && r.value[k].site.pos == seeds[r.value[k].site.index]
    ensures r.Ok? ==> forall k :: 0 <= k < |r.value| ==> r.value[k].site.weight == DefaultWeight(totalArea, |raw|)
    // the run fails exactly when the first diagram is short of cells
    ensures r.Err? <==>
              |g.diagram(clip, CreateTreemapPoints(ExtractWeights(raw, minWeightRatio), totalArea, seeds))| < |raw|
    ensures r.Err? ==> r.error == DegenerateDiagram
    ensures Complete(g) ==> r.Ok?
  {
    var sites := CreateTreemapPoints(ExtractWeights(raw, minWeightRatio), totalArea, seeds);
    assert forall s :: s in sites ==> s.weight == DefaultWeight(totalArea, |raw|);
    var cells :- Diagram(g, clip, sites);
    FirstCellsTracked(sites, cells, TargetAreas(ExtractWeights(raw, minWeightRatio), totalArea));
    Ok(cells)
  }

  /** Cells built from sites that carry their own positions as indexes are tracked. */
  lemma FirstCellsTracked(sites: seq<Site>, cells: seq<Cell>, targets: seq<real>)
    requires |sites| == |targets| && Targets(sites) == targets
    requires forall k :: 0 <= k < |sites| ==> sites[k].index == k
    requires |cells| == |sites|
    requires forall k :: 0 <= k < |cells| ==> cells[k].origin < |sites| && cells[k].site == sites[cells[k].origin]
    requires forall a, b :: 0 <= a < b < |cells| ==> cells[a].origin != cells[b].origin
    ensures Tracks(cells, targets)
  {
    forall k | 0 <= k < |cells|
      ensures cells[k].site.targetedArea == targets[cells[k].site.index]
    {
      assert Targets(sites)[cells[k].origin] == sites[cells[k].origin].targetedArea;
    }
  }
}

=== FILE: oracle.dfy ===
/** The weighted Voronoi construction and the polygon primitives, which the
    fitting controller only calls. They are parameters of the model: a
    record of functions, constrained by what the controller relies on. */
module GeometryOracle {
  import opened Sites

  /** A cell as the construction returns it: its boundary and the position
      of its originating site in the input sequence. */
  datatype RawCell = RawCell(polygon: seq<Point>, origin: nat)

  /** A cell together with the site it belongs to (`polygon.site.originalObject`)
      and that site's position in the sequence the diagram was built from. */
  datatype Cell = Cell(polygon: seq<Point>, site: Site, origin: nat)

  datatype Geometry = Geometry(
    diagram: (seq<Point>, seq<Site>) -> seq<RawCell>,  // weighted Voronoi of the sites, clipped
    area: seq<Point> -> real,                           // signed polygon area
    centroid: seq<Point> -> Point,                      // polygon centroid
    contains: (seq<Point>, Point) -> bool)              // point-in-polygon test

  /** What a power diagram of `n` sites looks like: at most one cell per
      site (no two cells share an originating site), each tagged with a site
      of the input and each of positive area (a site whose cell vanished is
      simply missing). */
  predicate WellFormedCells(g: Geometry, raw: seq<RawCell>, n: nat)
  {
    && |raw| <= n
    && (forall k :: 0 <= k < |raw| ==> raw[k].origin < n && g.area(raw[k].polygon) > 0.0)
    && (forall a, b :: 0 <= a < b < |raw| ==> raw[a].origin != raw[b].origin)
  }

  ghost predicate Sound(g: Geometry)
  {
    forall clip, sites {:trigger g.diagram(clip, sites)} ::
      WellFormedCells(g, g.diagram(clip, sites), |sites|)
  }

  type Oracle = g: Geometry | Sound(g)
    witness Geometry((clip, sites) => [], p => 1.0, p => Point(0.0, 0.0), (clip, p) => true)

  /** A construction that never loses a cell: every site keeps a cell. */
  ghost predicate Complete(g: Geometry)
  {
    forall clip, sites {:trigger g.diagram(clip, sites)} :: |g.diagram(clip, sites)| == |sites|
  }

  /** Unit cells, one per site in input order: a sound construction that
      never loses a cell, so both kinds of oracle exist. */
  lemma CompleteOracleExists()
    ensures exists g: Oracle :: Complete(g)
  {
    var g := Geometry(
      (clip, sites: seq<Site>) => seq(|sites|, k requires 0 <= k < |sites| => RawCell([], k)),
      p => 1.0, p => Point(0.0, 0.0), (clip, p) => true);
    assert Sound(g);
    assert Complete(g);
  }

  /** Every cell has positive area. */
  predicate PositiveCells(g: Geometry, cells: seq<Cell>)
  {
    forall k :: 0 <= k < |cells| ==> g.area(cells[k].polygon) > 0.0
  }

  /** One call to the construction (`wVoronoi(treemapPoints)`) followed by the
      source's cell-count check. With fewer cells than sites the next
      `polygons[i].site` access of the source fails, so the run ends there. */
  function Diagram(g: Oracle, clip: seq<Point>, sites: seq<Site>): (r: Result<seq<Cell>>)
    ensures r.Err? <==> |g.diagram(clip, sites)| < |sites|
    ensures r.Err? ==> r.error == DegenerateDiagram
    ensures Complete(g) ==> r.Ok?
    ensures r.Ok? ==> |r.value| == |sites| && PositiveCells(g, r.value)
    // each cell belongs to the site it originates from, and every site has exactly one cell
    ensures r.Ok? ==> forall k :: 0 <= k < |r.value| ==>
              r.value[k].origin < |sites| && r.value[k].site == sites[r.value[k].origin]
    ensures r.Ok? ==> forall a, b :: 0 <= a < b < |r.value| ==> r.value[a].origin != r.value[b].origin
    ensures r.Ok? ==> forall m :: 0 <= m < |sites| ==> m in Origins(r.value)
    ensures r.Ok? ==> forall k :: 0 <= k < |r.value| ==> r.value[k].site in sites
    // each cell is the construction's cell, in the construction's order
    ensures r.Ok? ==> forall k :: 0 <= k < |r.value| ==>
              && r.value[k].polygon == g.diagram(clip, sites)[k].polygon
              && r.value[k].origin == g.diagram(clip, sites)[k].origin
  {
    var raw := g.diagram(clip, sites);
    assert WellFormedCells(g, raw, |sites|);
    if |raw| < |sites| then Err(DegenerateDiagram)
    else
      var cells := seq(|raw|, k requires 0 <= k < |raw| => Cell(raw[k].polygon, sites[raw[k].origin], raw[k].origin));
      DistinctCovers(Origins(cells), |sites|);
      Ok(cells)
  }

  function Origins(cells: seq<Cell>): (o: seq<nat>)
    ensures |o| == |cells|
    ensures forall k :: 0 <= k < |cells| ==> o[k] == cells[k].origin
  {
    seq(|cells|, k requires 0 <= k < |cells| => cells[k].origin)
  }

  // ---------------------------------------------------------------------
  // Which item each cell stands for
  // ---------------------------------------------------------------------

  /** The cells' sites carry the item indexes `0 .. |targets| - 1`, each
      exactly once, and the site of item `i` targets `targets[i]`. */
  predicate Tracks(cells: seq<Cell>, targets: seq<real>)
  {
    && |cells| == |targets|
    && (forall k :: 0 <= k < |cells| ==>
          cells[k].site.index < |targets| && cells[k].site.targetedArea == targets[cells[k].site.index])
    && (forall a, b :: 0 <= a < b < |cells| ==> cells[a].site.index != cells[b].site.index)
  }

  function Indexes(cells: seq<Cell>): (o: seq<nat>)
    ensures |o| == |cells|
    ensures forall k :: 0 <= k < |cells| ==> o[k] == cells[k].site.index
  {
    seq(|cells|, k requires 0 <= k < |cells| => cells[k].site.index)
  }

  /** Tracked cells give every item a cell; by the distinct indexes it is
      the only one, and its site targets the item's area. */
  lemma TracksEveryItem(cells: seq<Cell>, targets: seq<real>)
    requires Tracks(cells, targets)
    ensures forall i :: 0 <= i < |targets| ==> i in Indexes(cells)
  {
    DistinctCovers(Indexes(cells), |targets|);
  }
}

=== FILE: overweight.dfy ===
/** Overweight correction: in a power diagram a site keeps a cell next to a
    heavier site only if their squared distance is at least the difference
    of their weights. The corrector scans all pairs, repairs the first
    violating pair it meets with one of two heuristics, and restarts the scan
    from the first pair, until a full scan finds nothing to repair. */
module Overweight {
  import opened Sites

  /** The two heuristics: variant 0 lowers the heavier weight, variant 1
      (the default) raises the lighter one. */
  datatype Variant = LowerHeavy | RaiseLight

  /** The variant switch: codes 0 and 1 select a heuristic, any other code
      selects none. */
  function SelectVariant(code: int): (v: Option<Variant>)
    ensures v == Some(LowerHeavy) <==> code == 0
    ensures v == Some(RaiseLight) <==> code == 1
    ensures v.None? <==> code != 0 && code != 1
  {
    if code == 0 then Some(LowerHeavy)
    else if code == 1 then Some(RaiseLight)
    else None
  }

  function VariantCode(v: Variant): int
  {
    match v
    case LowerHeavy => 0
    case RaiseLight => 1
  }

  /** Each heuristic is selected by its own code, and by no other. */
  lemma SelectVariantRoundTrip(v: Variant, code: int)
    ensures SelectVariant(VariantCode(v)) == Some(v)
    ensures SelectVariant(code) == Some(v) ==> code == VariantCode(v)
  {
  }

  // ---------------------------------------------------------------------
  // The pairwise condition
  // ---------------------------------------------------------------------

  /** `a` is the heavier of the pair exactly when its weight is strictly
      larger; on a tie the second site plays the heavier one. */
  function HeavierOf(a: Site, b: Site): Site { if a.weight > b.weight then a else b }
  function LighterOf(a: Site, b: Site): Site { if a.weight > b.weight then b else a }

  /** The source's test `sqrD < weightest.weight - lightest.weight`: the
      sites are closer than their weight gap. */
  predicate Violates(a: Site, b: Site): (r: bool)
    ensures r <==> SquaredDistance(a.pos, b.pos) < Abs(a.weight - b.weight)
  {
    SquaredDistance(a.pos, b.pos) < HeavierOf(a, b).weight - LighterOf(a, b).weight
  }

  /** The test is the symmetric condition `dist² < |wa - wb|`: it does not
      depend on which site is met first, and a site never violates with itself. */
  lemma ViolatesIsWeightGap(a: Site, b: Site)
    ensures Violates(a, b) <==> SquaredDistance(a.pos, b.pos) < Abs(a.weight - b.weight)
    ensures Violates(a, b) <==> Violates(b, a)
    ensures !Violates(a, a)
  {
  }

  /** No pair of sites violates the condition. */
  predicate NoViolation(s: seq<Site>)
  {
    forall i, j :: 0 <= i < j < |s| ==> !Violates(s[i], s[j])
  }

  /** In a sequence without violations, no two members violate, in either order. */
  lemma {:induction false} NoViolationMembers(s: seq<Site>, a: Site, b: Site)
    requires NoViolation(s)
    requires a in s && b in s
    ensures !Violates(a, b)
  {
    var p :| 0 <= p < |s| && s[p] == a;
    var q :| 0 <= q < |s| && s[q] == b;
    ViolatesIsWeightGap(a, b);
    if p < q {
      assert !Violates(s[p], s[q]);
    } else if q < p {
      assert !Violates(s[q], s[p]);
    }
  }

  // ---------------------------------------------------------------------
  // The scan: `for i … for j = i+1 …`, stopping at the first violation
  // ---------------------------------------------------------------------

  /** First `k >= j` such that sites `i` and `k` violate. */
  function ScanRow(s: seq<Site>, i: nat, j: nat): (r: Option<nat>)
    requires i < j <= |s|
    ensures r.Some? ==> j <= r.value < |s| && Violates(s[i], s[r.value])
    ensures r.Some? ==> forall k :: j <= k < r.value ==> !Violates(s[i], s[k])
    ensures r.None? ==> forall k :: j <= k < |s| ==> !Violates(s[i], s[k])
    decreases |s| - j
  {
    if j == |s| then None
    else if Violates(s[i], s[j]) then Some(j)
    else ScanRow(s, i, j + 1)
  }

  /** `(a, b)` comes before `(i, j)` in the order the scan visits pairs. */
  predicate ScannedBefore(a: nat, b: nat, i: nat, j: nat)
  {
    a < i || (a == i && b < j)
  }

  /** First violating pair `(i, j)`, `i < j`, with `i >= from`, in scan order. */
  function ScanFrom(s: seq<Site>, from: nat): (r: Option<(nat, nat)>)
    requires from <= |s|
    ensures r.Some? ==> from <= r.value.0 < r.value.1 < |s| && Violates(s[r.value.0], s[r.value.1])
    ensures r.Some? ==> forall a, b :: from <= a < b < |s| && ScannedBefore(a, b, r.value.0, r.value.1) ==>
                          !Violates(s[a], s[b])
    ensures r.None? ==> forall a, b :: from <= a < b < |s| ==> !Violates(s[a], s[b])
    decreases |s| - from
  {
    if from == |s| then None
    else
      match ScanRow(s, from, from + 1)
      case Some(j) => Some((from, j))
      case None => ScanFrom(s, from + 1)
  }

  /** The pair one full scan of the source repairs, if any. */
  function FirstViolation(s: seq<Site>): (r: Option<(nat, nat)>)
    ensures r.None? <==> NoViolation(s)
    ensures r.Some? ==> r.value.0 < r.value.1 < |s| && Violates(s[r.value.0], s[r.value.1])
    ensures r.Some? ==> forall a, b :: 0 <= a < b < |s| && ScannedBefore(a, b, r.value.0, r.value.1) ==>
                          !Violates(s[a], s[b])
  {
    ScanFrom(s, 0)
  }

  // ---------------------------------------------------------------------
  // The two repairs
  // ---------------------------------------------------------------------

  /** Position of `HeavierOf(s[i], s[j])`. */
  function Heavier(s: seq<Site>, i: nat, j: nat): (h: nat)
    requires i < |s| && j < |s|
    ensures (h == i || h == j) && s[h] == HeavierOf(s[i], s[j])
  {
    if s[i].weight > s[j].weight then i else j
  }

  /** Position of `LighterOf(s[i], s[j])`; it is the other one of the pair. */
  function Lighter(s: seq<Site>, i: nat, j: nat): (l: nat)
    requires i < |s| && j < |s|
    ensures (l == i || l == j) && s[l] == LighterOf(s[i], s[j])
    ensures i != j ==> l != Heavier(s, i, j)
  {
    if s[i].weight > s[j].weight then j else i
  }

  /** Variant 0 (`handleOverweighted0`): the heavier weight becomes
      `max(sqrD + lighter/2, epsilon)`. */
  function LowerHeavier(s: seq<Site>, i: nat, j: nat): (r: seq<Site>)
    requires i < j < |s| && Violates(s[i], s[j])
    ensures SamePlaces(s, r)
    ensures forall k :: 0 <= k < |s| && k != Heavier(s, i, j) ==> r[k] == s[k]
    ensures r[Heavier(s, i, j)].weight >= Epsilon
    ensures s[Lighter(s, i, j)].weight >= Epsilon ==>
              r[Heavier(s, i, j)].weight < s[Heavier(s, i, j)].weight
    ensures s[Lighter(s, i, j)].weight >= Epsilon ==>
              r[Heavier(s, i, j)].weight - s[Lighter(s, i, j)].weight <= SquaredDistance(s[i].pos, s[j].pos)
  {
    var h, l := Heavier(s, i, j), Lighter(s, i, j);
    var sqrD := SquaredDistance(s[i].pos, s[j].pos);
    s[h := s[h].(weight := Max(sqrD + s[l].weight / 2.0, Epsilon))]
  }

  /** Variant 1 (`handleOverweighted1`): the lighter weight grows by the
      overweight `heavier - lighter - sqrD` plus `epsilon`. */
  function RaiseLighter(s: seq<Site>, i: nat, j: nat): (r: seq<Site>)
    requires i < j < |s| && Violates(s[i], s[j])
    ensures SamePlaces(s, r)
    ensures forall k :: 0 <= k < |s| && k != Lighter(s, i, j) ==> r[k] == s[k]
    ensures r[Lighter(s, i, j)].weight > s[Lighter(s, i, j)].weight
    ensures s[Heavier(s, i, j)].weight - r[Lighter(s, i, j)].weight < SquaredDistance(s[i].pos, s[j].pos)
  {
    var h, l := Heavier(s, i, j), Lighter(s, i, j);
    var sqrD := SquaredDistance(s[i].pos, s[j].pos);
    var overweight := s[h].weight - s[l].weight - sqrD;
    s[l := s[l].(weight := s[l].weight + overweight + Epsilon)]
  }

  function Fix(v: Variant, s: seq<Site>, i: nat, j: nat): (r: seq<Site>)
    requires i < j < |s| && Violates(s[i], s[j])
    ensures SamePlaces(s, r)
    ensures AtLeastEpsilon(s) ==> AtLeastEpsilon(r)
    ensures v == RaiseLight ==> forall k :: 0 <= k < |s| ==> r[k].weight >= s[k].weight
    ensures v == LowerHeavy && AtLeastEpsilon(s) ==> forall k :: 0 <= k < |s| ==> r[k].weight <= s[k].weight
  {
    match v
    case LowerHeavy => LowerHeavier(s, i, j)
    case RaiseLight => RaiseLighter(s, i, j)
  }

  // ---------------------------------------------------------------------
  // The restart loop
  // ---------------------------------------------------------------------

  /** The `do … while (fixApplied)` loop. `fuel` bounds the number of
      repairs: the source has no bound and may repair forever (see
      `CoincidentSitesNeverSettle`), which the model reports as
      `CorrectionDiverges`. */
  function Correct(v: Variant, s: seq<Site>, fuel: nat): (r: Result<seq<Site>>)
    ensures r.Ok? ==> NoViolation(r.value)
    ensures r.Ok? ==> SamePlaces(s, r.value)
    ensures r.Ok? && AtLeastEpsilon(s) ==> AtLeastEpsilon(r.value)
    ensures r.Ok? && v == RaiseLight ==> forall k :: 0 <= k < |s| ==> r.value[k].weight >= s[k].weight
    ensures r.Ok? && v == LowerHeavy && AtLeastEpsilon(s) ==>
              forall k :: 0 <= k < |s| ==> r.value[k].weight <= s[k].weight
    ensures NoViolation(s) ==> r == Ok(s)
    ensures r.Err? ==> r.error == CorrectionDiverges
    decreases fuel
  {
    match FirstViolation(s)
    case None => Ok(s)
    case Some((i, j)) =>
      if fuel == 0 then Err(CorrectionDiverges)
      else Correct(v, Fix(v, s, i, j), fuel - 1)
  }

  /** Variant 1 settles two sites at squared distance at least `epsilon / 2`
      with one repair: the lighter weight becomes `heavier - sqrD + epsilon`. */
  lemma RaiseLightSettlesApartPair(a: Site, b: Site)
    requires SquaredDistance(a.pos, b.pos) >= Epsilon / 2.0
    ensures Correct(RaiseLight, [a, b], 1).Ok?
    ensures Violates(a, b) && a.weight > b.weight ==>
              Correct(RaiseLight, [a, b], 1).value
                == [a, b.(weight := a.weight - SquaredDistance(a.pos, b.pos) + Epsilon)]
    ensures Violates(a, b) && a.weight <= b.weight ==>
              Correct(RaiseLight, [a, b], 1).value
                == [a.(weight := b.weight - SquaredDistance(a.pos, b.pos) + Epsilon), b]
  {
    var s := [a, b];
    if Violates(a, b) {
      assert FirstViolation(s) == Some((0, 1));
      var t := Fix(RaiseLight, s, 0, 1);
      ViolatesIsWeightGap(t[0], t[1]);
      assert NoViolation(t) by {
        assert !Violates(t[0], t[1]);
      }
    } else {
      assert NoViolation(s);
    }
  }

  /** Variant 0 settles two floored sites with one repair when the lighter
      weight is at most four times their squared distance: the heavier
      weight becomes `max(sqrD + lighter / 2, epsilon)`. */
  lemma LowerHeavySettlesApartPair(a: Site, b: Site)
    requires Min(a.weight, b.weight) >= Epsilon
    requires Min(a.weight, b.weight) <= 4.0 * SquaredDistance(a.pos, b.pos)
    ensures Correct(LowerHeavy, [a, b], 1).Ok?
    ensures Violates(a, b) && a.weight > b.weight ==>
              Correct(LowerHeavy, [a, b], 1).value
                == [a.(weight := Max(SquaredDistance(a.pos, b.pos) + b.weight / 2.0, Epsilon)), b]
    ensures Violates(a, b) && a.weight <= b.weight ==>
              Correct(LowerHeavy, [a, b], 1).value
                == [a, b.(weight := Max(SquaredDistance(a.pos, b.pos) + a.weight / 2.0, Epsilon))]
  {
    var s := [a, b];
    if Violates(a, b) {
      assert FirstViolation(s) == Some((0, 1));
      var t := Fix(LowerHeavy, s, 0, 1);
      ViolatesIsWeightGap(t[0], t[1]);
      assert NoViolation(t) by {
        assert !Violates(t[0], t[1]);
      }
    } else {
      assert NoViolation(s);
    }
  }

  /** Every sequence of `n` sites is settled by at most `fuel` repairs. */
  ghost predicate Untroubled(v: Variant, fuel: nat, n: nat)
  {
    forall s: seq<Site> {:trigger Correct(v, s, fuel)} :: |s| == n ==> Correct(v, s, fuel).Ok?
  }

  /** With fewer than two sites there is no pair to repair, so no budget is
      too small; from two sites on no fixed budget settles every sequence,
      under either variant (see `CoincidentSitesNeverSettle` and
      `StuckPairNeverSettles`). */
  lemma UntroubledOnlyBelowTwo(v: Variant, fuel: nat, n: nat)
    ensures n <= 1 ==> Untroubled(v, fuel, n)
    ensures n >= 2 ==> !Untroubled(v, fuel, n)
  {
    if n <= 1 {
      forall s: seq<Site> | |s| == n
        ensures Correct(v, s, fuel).Ok?
      {
        assert NoViolation(s);
      }
    } else {
      var origin := Point(0.0, 0.0);
      var light := Site(0, 0.0, origin, 0.5);
      var heavy := Site(1, 0.0, origin, Epsilon);
      var s := [light, heavy] + seq(n - 2, k => heavy);
      if v == RaiseLight {
        CoincidentSitesNeverSettle(s, fuel);
      } else {
        StuckPairNeverSettles(s, fuel);
      }
      assert Correct(v, s, fuel).Err?;
    }
  }

  /** Correcting a corrected sequence changes nothing. */
  lemma CorrectIdempotent(v: Variant, s: seq<Site>, fuel: nat, fuel': nat)
    requires Correct(v, s, fuel).Ok?
    ensures Correct(v, Correct(v, s, fuel).value, fuel') == Correct(v, s, fuel)
  {
  }

  /** Variant 1 never settles sites whose first two are at the same position
      with different weights: each repair lifts the lighter one of that pair
      `epsilon` above the heavier one, so the pair keeps swapping roles, stays
      the first violation of every scan, and the source loops forever. */
  lemma {:induction false} CoincidentSitesNeverSettle(s: seq<Site>, fuel: nat)
    requires |s| >= 2 && s[0].pos == s[1].pos && s[0].weight != s[1].weight
    ensures Correct(RaiseLight, s, fuel) == Err(CorrectionDiverges)
    decreases fuel
  {
    assert Violates(s[0], s[1]);
    assert FirstViolation(s) == Some((0, 1));
    if fuel > 0 {
      var t := Fix(RaiseLight, s, 0, 1);
      assert t[0].pos == t[1].pos;
      CoincidentSitesNeverSettle(t, fuel - 1);
    }
  }

  /** Variant 0 never settles sites whose first two are at the same position
      with the heavier at `epsilon` and the lighter below it: the repair sets
      the heavier weight to `max(0 + lighter / 2, epsilon) = epsilon`, which
      changes nothing, so the same pair is found again forever. */
  lemma {:induction false} StuckPairNeverSettles(s: seq<Site>, fuel: nat)
    requires |s| >= 2 && s[0].pos == s[1].pos
    requires s[0].weight < Epsilon && s[0].weight <= 2.0 && s[1].weight == Epsilon
    ensures Correct(LowerHeavy, s, fuel) == Err(CorrectionDiverges)
    decreases fuel
  {
    assert Violates(s[0], s[1]);
    assert FirstViolation(s) == Some((0, 1));
    if fuel > 0 {
      assert Fix(LowerHeavy, s, 0, 1) == s;
      StuckPairNeverSettles(s, fuel - 1);
    }
  }
}

=== FILE: sites.dfy ===
/** Basic vocabulary of the Voronoi map: points, treemap sites, the failure
    datatypes the fitting run can end with, and sums over reals. */
module Sites {

  /** The floor every adapted power-weight is kept at or above (`epsilon`). */
  const Epsilon: real := 1.0

  datatype Point = Point(x: real, y: real)

  /** Squared Euclidean distance, `sqr(dx) + sqr(dy)`. */
  function SquaredDistance(p: Point, q: Point): (d: real)
    ensures d >= 0.0
    ensures p == q ==> d == 0.0
  {
    (q.x - p.x) * (q.x - p.x) + (q.y - p.y) * (q.y - p.y)
  }

  /** A treemap point: the working record of one data item. `weight` is the
      power-weight handed to the weighted Voronoi construction, not the
      item's data weight. */
  datatype Site = Site(index: nat, targetedArea: real, pos: Point, weight: real)

  /** `Math.max` and `Math.min` on non-NaN numbers. */
  function Max(a: real, b: real): real { if a >= b then a else b }
  function Min(a: real, b: real): real { if a <= b then a else b }
  function Abs(a: real): real { if a < 0.0 then -a else a }

  /** Every site's power-weight is at least `epsilon`. */
  predicate AtLeastEpsilon(s: seq<Site>)
  {
    forall k :: 0 <= k < |s| ==> s[k].weight >= Epsilon
  }

  /** `b` differs from `a` in weights only: same sites, in the same order,
      at the same positions, with the same targets. */
  predicate SamePlaces(a: seq<Site>, b: seq<Site>)
  {
    && |a| == |b|
    && forall k :: 0 <= k < |a| ==>
         a[k].pos == b[k].pos && a[k].index == b[k].index && a[k].targetedArea == b[k].targetedArea
  }

  function Targets(s: seq<Site>): (t: seq<real>)
    ensures |t| == |s|
    ensures forall k :: 0 <= k < |s| ==> t[k] == s[k].targetedArea
  {
    seq(|s|, k requires 0 <= k < |s| => s[k].targetedArea)
  }

  // ---------------------------------------------------------------------
  // Sums (exact over reals; the source sums IEEE doubles left to right)
  // ---------------------------------------------------------------------

  function Sum(xs: seq<real>): real
  {
    if |xs| == 0 then 0.0 else xs[0] + Sum(xs[1..])
  }

  function Scale(xs: seq<real>, c: real): (ys: seq<real>)
    ensures |ys| == |xs|
    ensures forall k :: 0 <= k < |xs| ==> ys[k] == c * xs[k]
  {
    seq(|xs|, k requires 0 <= k < |xs| => c * xs[k])
  }

  /** Multiplying every term by `c` multiplies the sum by `c`. */
  lemma {:induction false} SumScale(xs: seq<real>, c: real)
    ensures Sum(Scale(xs, c)) == c * Sum(xs)
  {
    if |xs| > 0 {
      ScaleTail(xs, c);
      SumScale(xs[1..], c);
      Distribute(c, xs[0], Sum(xs[1..]));
    }
  }

  lemma ScaleTail(xs: seq<real>, c: real)
    requires |xs| > 0
    ensures Scale(xs, c)[1..] == Scale(xs[1..], c)
  {
    var ys, tail := Scale(xs, c), xs[1..];
    forall k | 0 <= k < |tail|
      ensures ys[1..][k] == Scale(tail, c)[k]
    {
      assert ys[1..][k] == ys[k + 1] == c * xs[k + 1];
    }
  }

  lemma Distribute(c: real, a: real, b: real)
    ensures c * a + c * b == c * (a + b)
  {
  }

  /** A sum of non-negative terms is at least each of its terms. */
  lemma {:induction false} SumBoundsTerms(xs: seq<real>, k: nat)
    requires forall i :: 0 <= i < |xs| ==> xs[i] >= 0.0
    requires k < |xs|
    ensures Sum(xs) >= xs[k] >= 0.0
  {
    SumNonNegative(xs[1..]);
    if k > 0 {
      SumBoundsTerms(xs[1..], k - 1);
    }
  }

  lemma {:induction false} SumNonNegative(xs: seq<real>)
    requires forall i :: 0 <= i < |xs| ==> xs[i] >= 0.0
    ensures Sum(xs) >= 0.0
  {
    if |xs| > 0 {
      SumNonNegative(xs[1..]);
    }
  }

  // ---------------------------------------------------------------------
  // Pigeonhole: n distinct numbers below n are all of them
  // ---------------------------------------------------------------------

  function Below(n: nat): (r: set<nat>)
    ensures forall m: nat :: m in r <==> m < n
    ensures |r| == n
  {
    if n == 0 then {}
    else
      var smaller := Below(n - 1);
      assert n - 1 !in smaller;
      smaller + {n - 1}
  }

  /** A subset is no larger than its superset. */
  lemma {:induction false} SubsetSize(a: set<nat>, b: set<nat>)
    requires a <= b
    ensures |a| <= |b|
    decreases |b|
  {
    if b != {} {
      var x :| x in b;
      SubsetSize(a - {x}, b - {x});
    }
  }

  /** Adding a new element grows a set by one. */
  lemma AddOne(a: set<nat>, x: nat)
    requires x !in a
    ensures |a + {x}| == |a| + 1
  {
  }

  function Values(o: seq<nat>): (r: set<nat>)
    ensures forall x :: x in r <==> x in o
  {
    set x | x in o
  }

  /** The values of a sequence without repetitions are as many as its elements. */
  lemma {:induction false} DistinctValues(o: seq<nat>)
    requires forall a, b :: 0 <= a < b < |o| ==> o[a] != o[b]
    ensures |Values(o)| == |o|
  {
    if |o| == 0 {
      assert Values(o) == {};
    } else {
      var rest := o[1..];
      assert forall a, b :: 0 <= a < b < |rest| ==> rest[a] != rest[b] by {
        forall a, b | 0 <= a < b < |rest| ensures rest[a] != rest[b] {
          assert rest[a] == o[a + 1] && rest[b] == o[b + 1];
        }
      }
      DistinctValues(rest);
      assert o[0] !in rest by {
        forall k | 0 <= k < |rest| ensures rest[k] != o[0] {
          assert rest[k] == o[k + 1];
        }
      }
      assert Values(o) == Values(rest) + {o[0]} by {
        assert o == [o[0]] + rest;
      }
      AddOne(Values(rest), o[0]);
    }
  }

  /** `n` distinct numbers below `n` take every value below `n`. */
  lemma DistinctCovers(o: seq<nat>, n: nat)
    requires |o| == n
    requires forall k :: 0 <= k < |o| ==> o[k] < n
    requires forall a, b :: 0 <= a < b < |o| ==> o[a] != o[b]
    ensures forall m :: 0 <= m < n ==> m in o
  {
    var values := Values(o);
    DistinctValues(o);
    forall m | 0 <= m < n
      ensures m in o
    {
      if m !in values {
        assert Below(n) == (Below(n) - {m}) + {m};
        assert values <= Below(n) - {m};
        AddOne(Below(n) - {m}, m);
        SubsetSize(values, Below(n) - {m});
      }
    }
  }

  // ---------------------------------------------------------------------
  // Failure-compatible outcomes of a run
  // ---------------------------------------------------------------------

  datatype Option<+T> = None | Some(value: T) {
    function ToResult(e: Error): Result<T>
    {
      match this
      case Some(v) => Ok(v)
      case None => Err(e)
    }
  }

  /** Ways a fitting run can end without a result. */
  datatype Error =
    | DegenerateDiagram   // the diagram has fewer cells than there are sites
    | CorrectionDiverges  // the overweight correction ran out of fuel
    | UnknownVariant      // no overweight-correction heuristic was selected

  datatype Result<+T> = Ok(value: T) | Err(error: Error) {
    predicate IsFailure() { Err? }

    function PropagateFailure<U>(): Result<U>
      requires Err?
    {
      Err(error)
    }

    function Extract(): T
      requires Ok?
    {
      value
    }
  }
}
